=== FILE: README.md ===
# resolve-type pass: a Dafny model

This project models the core of `babel-plugin-resolve-type`. The plugin is a
Babel pass that turns the TypeScript types written on a Vue `defineComponent(...)`
call into runtime component options. The model covers:

- recognising the call: the callee must be the bare identifier `defineComponent`, and the identifier must either have no binding in scope or be imported from `vue` or a `@vue/...` source;
- classifying the first argument as the object form (an object literal with a `setup` method) or the function form;
- locating the props type: the first parameter's annotation, or the first generic argument, together with an assignment-pattern default;
- locating the emits type: `SetupContext<E>` on the second parameter, or the second generic argument;
- asking the runtime resolver for props and emits, and merging its answer as a `props` / `emits` key with the `addProperty` rule;
- inferring `name: "Foo"` for `const Foo = defineComponent(...)`.

The syntax tree is reduced to a few datatypes (`Ast`). Each visitor step is a
pure function. The per-file resolution context and the set of runtime helpers
are threaded from call to call as an explicit `PluginState`. The external
resolver (`extractRuntimeProps` / `extractRuntimeEmits`) is a `Resolver` value
holding two arbitrary functions of the context. The general members
(everything but the examples) are proved for every possible resolver. The
examples are `Pass.TypedCallLeavesPropsType`,
`Pass.StalePropsTypeReachesUntypedCall`, `Pass.EarlierPropsLeakIntoLaterCall`,
`Pass.FreshUntypedCallGetsNoProps`, `VisitorFacts.IdentifierOptionsLoseProps`,
`VisitorFacts.SetupContextEmitsStep` and `VisitorFacts.SetupContextEmitsExample`.
They fix a concrete resolver (`VisitorFacts.PropsOnlyResolver` or
`VisitorFacts.EventsResolver`) to exhibit one input.

Modules, leaf first:

- `Wrappers`: the `Option` and `Result` types.
- `Ast`: type nodes, parameters, object members, expressions and calls. It also defines the run-time `Entries` view of an options expression.
- `Merge`: `addProperty`.
- `Provenance`: `checkDefineComponent` and its `^@?vue(\/|$)` test.
- `Context`: the resolution context, the helper set, the resolver and the fatal errors.
- `Locate`: the context update at the start of `processProps`, and the emits type selection of `processEmits`.
- `Synthesize`: `processProps`, `addEmit` and `processEmits`.
- `Visitor`: the `CallExpression` visitor, with its object form and function form. `VisitorFacts` holds the properties of the visitor.
- `Naming`: `inferComponentName`.
- `Pass`: visiting a file's calls in order, and the corrected per-call reset.

Where the code differs from what a reader might expect, the model follows the code:

- A binding of `defineComponent` that is not an import is rejected, even when it is a function parameter. A reader might expect parameter bindings to be accepted.
- A `SetupContext` annotation without type arguments gives no emits and does not fall back to the generic default.
- The three call-specific context fields are never cleared between calls. They are evidently meant to be cleared per call (see Findings).

## Model

| member | source | states |
|---|---|---|
| Merge.AddProperty | packages/babel-plugin-resolve-type/src/index.ts:265-276 | the result is an object literal exactly when the input is an expression, and on an object literal it holds one member more |
| Merge.AddPropertyPrependsToObject | packages/babel-plugin-resolve-type/src/index.ts:270-271 | on an object literal the new property is member 0 and every old member moves up by one, in order |
| Merge.AddPropertyWrapsExpression | packages/babel-plugin-resolve-type/src/index.ts:272-273 | any other expression becomes a fresh `{prop, ...expr}` that contains the original once |
| Merge.AddPropertyKeepsNonExpression | packages/babel-plugin-resolve-type/src/index.ts:270-275 | a spread element or argument placeholder comes back unchanged |
| Merge.AddPropertyEntries | packages/babel-plugin-resolve-type/src/index.ts:265-276 | read at run time, the merged options are the new entry followed by exactly the original's entries, in the object-literal and wrapping cases alike |
| Merge.AddPropertyCountsOneMore | packages/babel-plugin-resolve-type/src/index.ts:265-276 | an identifier-keyed merge adds exactly one key of that name and removes none |
| Ast.HasIffCounted | packages/babel-plugin-resolve-type/src/index.ts:85-97 | the existing-key test (`some` over the properties) holds exactly when at least one identifier-keyed property of that name exists |
| Provenance.CheckDefineComponent | packages/babel-plugin-resolve-type/src/index.ts:252-263 | eligible exactly when there is no binding, or the binding comes from an import whose source is `vue`, `@vue`, or under `vue/` or `@vue/` |
| Provenance.VueSourceByPrefix | packages/babel-plugin-resolve-type/src/index.ts:261 | the left-to-right reading of `^@?vue(\/\|$)` agrees with the four-case prefix description |
| Provenance.ProvenanceExamples | packages/babel-plugin-resolve-type/test/resolve-type.test.tsx:268-302 | no binding, `vue`, `vue/dist/vue.esm-bundler` and `@vue/runtime-core` are accepted; `vuex`, `vue-router`, `my-vue` and a local declaration are rejected |
| Context.Pre | packages/babel-plugin-resolve-type/src/index.ts:21-58 | a file starts with a loaded context holding no props type, runtime defaults or emits type, and no helpers; an empty file name becomes `unknown.js` |
| Context.Register | packages/babel-plugin-resolve-type/src/index.ts:47-50 | registering helper keys keeps every earlier key, adds the new ones, and adds nothing else |
| Ast.AnnotatedType | packages/babel-plugin-resolve-type/src/index.ts:242-250 | `getTypeAnnotation` yields a type exactly for a TS annotation, and then its inner type; Flow or no annotation yields nothing |
| Ast.ParamType | packages/babel-plugin-resolve-type/src/index.ts:242-250 | on a parameter: a type exactly when it is not an assignment pattern and carries a TS annotation |
| Locate.TypeArgAt | packages/babel-plugin-resolve-type/src/index.ts:76-79 | a generic default is present exactly when the call writes that many type arguments |
| Locate.UpdatePropsContext | packages/babel-plugin-resolve-type/src/index.ts:168-178 | no parameter: the default replaces the props type only if it exists; a parameter: its own annotation, else the default, else absent; runtime defaults change only for an assignment pattern, which records its right side |
| Locate.StalePropsTypeExactlyWithoutParamOrDefault | packages/babel-plugin-resolve-type/src/index.ts:169-172 | the previous call's props type survives into the resolver's context exactly when there is no first parameter and no generic default |
| Locate.SelectEmitsType | packages/babel-plugin-resolve-type/src/index.ts:223-238 | a selected emits type is either the generic default or the first type argument of a `SetupContext` annotation on the second parameter |
| Locate.SetupContextArgumentWins | packages/babel-plugin-resolve-type/src/index.ts:235-238 | `SetupContext<E, ...>` selects `E` whatever the default |
| Locate.BareSetupContextYieldsNothing | packages/babel-plugin-resolve-type/src/index.ts:235-236 | `SetupContext` with no type argument selects nothing, even when a default exists |
| Locate.NoSetupContextFallsBack | packages/babel-plugin-resolve-type/src/index.ts:223-232 | no second parameter, no TS annotation, or a type other than the bare identifier `SetupContext` selects the generic default |
| Synthesize.EmitsArray | packages/babel-plugin-resolve-type/src/index.ts:205-207 | the runtime emits value is an array literal with one element per event name |
| Synthesize.EmitsArrayRoundTrip | packages/babel-plugin-resolve-type/src/index.ts:205-207 | the emits array reads back as exactly the resolver's event names, in order |
| Synthesize.ProcessProps | packages/babel-plugin-resolve-type/src/index.ts:160-193 | the context is updated from the first parameter; with no props type or no resolver answer there is no result; otherwise the result is the options with one `props` entry prepended; a resolver error aborts naming the file; on success the result is exactly the merge of `PropsAnswer`, what the resolver answers in the updated context; it fails exactly when its resolver is asked and fails, and on success the helpers grow by exactly what that resolver registered |
| Synthesize.AddEmit | packages/babel-plugin-resolve-type/src/index.ts:195-213 | the resolver sees the context with the emits type already set; the options gain one `emits` entry whose value is the array of its event names |
| Synthesize.ProcessEmits | packages/babel-plugin-resolve-type/src/index.ts:215-239 | with no selected emits type nothing changes, not even the context; otherwise it is `AddEmit` with that type; on success the context records the selected type and the result is exactly the merge of `EmitsAnswer`, the resolver's event names for it; it fails exactly when its resolver is asked and fails, and on success the helpers grow by exactly what that resolver registered |
| Visitor.ClassifyComponent | packages/babel-plugin-resolve-type/src/index.ts:72-114 | the object form exactly for an object-literal first argument, the function form exactly for a function, unsupported otherwise (including no argument) |
| Visitor.FindSetup | packages/babel-plugin-resolve-type/src/index.ts:100-103 | the index of the first method keyed by the identifier `setup`, or none when no member is one |
| Visitor.ObjectForm | packages/babel-plugin-resolve-type/src/index.ts:81-113 | without `setup` nothing changes. With it, the step fails exactly when a resolver it asks fails, and the error carries the props resolver's message if that resolver failed, else the emits resolver's. Otherwise: the members become `emits: <names>` (when no `emits` key exists, the `setup` parameters select an emits type and the resolver answers), then `props: <answer>` (when no `props` key exists and the resolver answers for the updated props type), then every original member in order; each key occurs at most once more; the context ends with the props type (and runtime defaults) of that update and the selected emits type; the helpers gain exactly what the two resolvers registered |
| Visitor.SetupForm | packages/babel-plugin-resolve-type/src/index.ts:104-111 | the `setup` branch for given parameters: the same failure, member, context and helper outcome, plus the shape bounds |
| Visitor.GuardedProps | packages/babel-plugin-resolve-type/src/index.ts:105-107 | skipped (no change, no failure) when a `props` key exists; otherwise fails exactly when the props resolver fails, leaves the updated context and the resolver's helpers, and yields the merge of its answer |
| Visitor.GuardedEmits | packages/babel-plugin-resolve-type/src/index.ts:108-110 | skipped when an `emits` key exists; otherwise fails exactly when the emits resolver is asked and fails, records the selected emits type, adds its helpers, and yields the merge of its names |
| Visitor.FunctionForm | packages/babel-plugin-resolve-type/src/index.ts:114-124 | the first argument and any after the second are kept, and a missing second argument is added; the context ends with the props type of the first parameter or generic argument, and the selected emits type; read at run time, object-literal or missing options become the emits entry, then the props entry, then the old entries, and stay an object literal; other options get the same when emits are produced, and otherwise come back as the original node; when neither resolver answers, the options come back as the original node; it fails exactly when the props resolver (asked when a props type is set) or the emits resolver (asked when an emits type is selected) fails, with the props message taking precedence; the helpers gain exactly what the two resolvers registered |
| Visitor.FunctionFormFixed | packages/babel-plugin-resolve-type/src/index.ts:121-124 | the corrected function form keeps the same argument layout, and for every expression options the second argument is the emits entry, then the props entry, then the old entries; object-literal options stay an object literal |
| Visitor.VisitCall | packages/babel-plugin-resolve-type/src/index.ts:61-125 | fails without a context; leaves the call and state alone when the callee is not `defineComponent`, fails provenance, or has no function/object first argument; the object form replaces only the first argument, with `ObjectForm` given the first generic argument as the props default; the function form's arguments are `FunctionForm` with the first generic argument as the props default and the second as the emits default; when either form fails, the visitor fails with that form's own error, resolver message included; helpers only grow; errors name the file |
| VisitorFacts.GenericArgumentsRoute | packages/babel-plugin-resolve-type/src/index.ts:72-79 | for `defineComponent<P, E>(() => …)`, `P` is the props type and `E` the emits type the resolver sees, and the options read as the emits answer then the props answer |
| VisitorFacts.ObjectFormIgnoresGenericEmits | packages/babel-plugin-resolve-type/src/index.ts:81-83 | in the object form, changing the second generic argument changes neither the rewrite nor the state nor the error |
| VisitorFacts.ObjectFormRerunAddsNoSecondKey | packages/babel-plugin-resolve-type/src/index.ts:85-110 | running the visitor on its own object-form output leaves at most one `props` and one `emits` key |
| VisitorFacts.OnlyFirstSetupMethodCounts | packages/babel-plugin-resolve-type/src/index.ts:100-106 | an untyped first `setup` shadows a typed second one: no props are synthesized |
| VisitorFacts.FunctionFormEmitsBeforeProps | packages/babel-plugin-resolve-type/src/index.ts:121-124 | with object-literal options and both keys synthesized, the result is `{emits, props, ...user members}` |
| VisitorFacts.FunctionFormRevertsWhenNoEmits | packages/babel-plugin-resolve-type/src/index.ts:123-124 | non-object options come back as the original node when emits produce nothing, whatever props did |
| VisitorFacts.IdentifierOptionsLoseProps | packages/babel-plugin-resolve-type/src/index.ts:121-124 | for `(props: P) => …` with options `opts`, the props merge happens, yet the final second argument is plain `opts`; the corrected form gives `{props, ...opts}` |
| VisitorFacts.FunctionFormFixedKeepsProps | packages/babel-plugin-resolve-type/src/index.ts:121-124 | in the corrected form a synthesized `props` key always survives into the second argument |
| VisitorFacts.SetupContextEmitsStep | packages/babel-plugin-resolve-type/src/index.ts:215-238 | with no props type in the context, `SetupContext<events>` on the second parameter gives the options `{ emits: ["change", "click"] }` |
| VisitorFacts.SetupContextEmitsExample | packages/babel-plugin-resolve-type/test/resolve-type.test.tsx:195-211 | on a fresh file, the call of that test gains `{ emits: ["change", "click"] }`, in declaration order |
| VisitorFacts.MissingOptionsBecomeEmptyObject | packages/babel-plugin-resolve-type/src/index.ts:116-120 | `defineComponent(() => …)` with nothing to synthesize still gains `{}` as its second argument |
| Naming.InferComponentName | packages/babel-plugin-resolve-type/src/index.ts:137-158 | only an identifier bound to a Vue `defineComponent` call with arguments is changed; a lone argument gains `{}`; the second argument's entries become `name: "<id>"` followed by its old entries; a spread second argument is kept; other arguments are untouched |
| Naming.NoOptionsExample | packages/babel-plugin-resolve-type/test/resolve-type.test.tsx:306-314 | `const Foo = defineComponent(f)` becomes `defineComponent(f, { name: "Foo" })` |
| Naming.ObjectOptionsExample | packages/babel-plugin-resolve-type/test/resolve-type.test.tsx:316-324 | `{ foo: 'bar' }` becomes `{ name: "Foo", foo: 'bar' }` |
| Naming.IdentifierOptionsExample | packages/babel-plugin-resolve-type/test/resolve-type.test.tsx:326-334 | `opts` becomes `{ name: "Foo", ...opts }` |
| Naming.RestArgumentExample | packages/babel-plugin-resolve-type/test/resolve-type.test.tsx:336-344 | `defineComponent(f, ...args)` is left exactly as it was |
| Naming.LocalDefineComponentNotNamed | packages/babel-plugin-resolve-type/src/index.ts:144-145 | a `defineComponent` declared locally gets no name |
| Naming.NameAddedEvenIfPresent | packages/babel-plugin-resolve-type/src/index.ts:147-157 | on object options each run adds one more `name` key; an existing one is not looked for |
| Pass.TransformCalls | packages/babel-plugin-resolve-type/src/index.ts:61-66 | one rewritten call per visited call; helpers only grow across the file; without a context the first call fails; otherwise every error is a resolver error |
| Pass.TransformCallsAppend | packages/babel-plugin-resolve-type/src/index.ts:60-66 | visiting `a + b` is visiting `a`, then `b` from the state `a` left, with the rewritten calls concatenated and the first error ending the file |
| Pass.TransformCallsThreads | packages/babel-plugin-resolve-type/src/index.ts:60-66 | the first call is visited with the file's starting state and the rest with the state it left |
| Pass.ResetCallFields | packages/babel-plugin-resolve-type/src/index.ts:169-175 | the corrected reset clears the props type, runtime defaults and emits type, and keeps the file name, source and helpers |
| Pass.TypedCallLeavesPropsType | packages/babel-plugin-resolve-type/src/index.ts:177 | visiting `(props: P) => …` leaves `P` as the context's props type |
| Pass.StalePropsTypeReachesUntypedCall | packages/babel-plugin-resolve-type/src/index.ts:169-172 | with a props type left in the context, `defineComponent(() => …)` is given props |
| Pass.EarlierPropsLeakIntoLaterCall | packages/babel-plugin-resolve-type/src/index.ts:54-57 | in a file with a typed call followed by an untyped one, the untyped call receives the typed call's props |
| Pass.VisitCallFresh | packages/babel-plugin-resolve-type/src/index.ts:169-175 | the corrected visitor fails without a context and keeps every helper |
| Pass.FreshVisitIgnoresEarlierCalls | packages/babel-plugin-resolve-type/src/index.ts:169-175 | with the per-call reset, states that differ only in what earlier calls left give the same outcome |
| Pass.FreshUntypedCallGetsNoProps | packages/babel-plugin-resolve-type/src/index.ts:169-172 | with the per-call reset, `defineComponent(() => …)` only gains `{}`, whatever came before |

## Findings

| source | as written | input that shows it | evidently intended | confidence | as-written member | corrected member |
|---|---|---|---|---|---|---|
| packages/babel-plugin-resolve-type/src/index.ts:123-124 | when emits produce nothing, `node.arguments[1]` is reset to the original `options`, which drops the `{props, ...options}` object built one line earlier unless `options` was an object literal | `export default defineComponent((props: P) => …, opts)` with no `SetupContext` and no second generic argument. Inside `const X = …` the name merge runs first and turns `opts` into an object literal, which hides the loss | fall back to the props-merged `node.arguments[1]`, giving `{props: …, ...opts}` | medium (not executed) | VisitorFacts.IdentifierOptionsLoseProps | VisitorFacts.FunctionFormFixedKeepsProps |
| packages/babel-plugin-resolve-type/src/index.ts:169-175 | `propsTypeDecl` (and `propsRuntimeDefaults`, `emitsTypeDecl`) are never cleared, so a call without a first parameter or generic argument reuses the previous call's props type | `defineComponent((props: P) => …)` followed by `defineComponent(() => …)` in one file | clear the call-specific fields before each call | medium (not executed) | Pass.EarlierPropsLeakIntoLaterCall | Pass.FreshUntypedCallGetsNoProps |

Both corrected definitions, `Visitor.FunctionFormFixed` and `Pass.VisitCallFresh`, sit next to the as-written ones. Every other member follows the code as written.

## Left out

- Plugin plumbing: `declare`, the `pre`/`post` hooks and Babel's traversal order (index.ts:15-29, 60-61, 126-135). `Context.Pre` only gives the initial context values. `Pass.TransformCalls` only sequences call visits. How these interleave with `VariableDeclarator` visits and with nested calls is not modelled.
- Helper imports: `post` turns each helper into an `addNamed` import (index.ts:130-134). That import bookkeeping is done by a foreign helper; the model keeps only the helper set.
- Resolver internals: `extractRuntimeProps` and `extractRuntimeEmits` belong to `@vue/compiler-sfc`. They are arbitrary functions of the context here. The model does not require the emits names to be distinct, although the library returns a set.
- `parseExpression` (index.ts:187): the resolver's answer is taken as an already parsed expression, so parse failures are not modelled. An empty-string answer, which is falsy in the source, is folded into "no answer".
- Error rendering: the `codeFrameColumns` excerpt and the message prefix (index.ts:30-46, 62-66) are left out. A fatal error is only `ContextNotLoaded` or `ResolverFailure(filename, message)`.
- `getString` source slicing (index.ts:51-53), and the `ast`, `isCE`, `options` and `propsDestructuredBindings` context fields. This core never changes them.
- Computed keys and method kinds: the source does not look at either, so `[props]: x` counts as a `props` key and `get setup()` as the `setup` method. The model's `IdentKey` and `Method` stand for all of these.
- `packages/babel-plugin-jsx/src/interface.ts` declares option types only and has no behaviour.

=== FILE: ast.dfy ===
/**
 * The slice of the Babel syntax tree that the resolve-type pass inspects or
 * produces. Everything the pass never looks into (function bodies, the text
 * of an identifier's value, the inside of a resolver's output) is collapsed
 * into an opaque payload.
 */
module Ast {
  import opened Wrappers

  /** The `typeName` of a TS type reference: `SetupContext` or `Vue.SetupContext`. */
  datatype TypeName =
    | TypeIdent(name: string)
    | QualifiedName(qualifier: TypeName, right: string)

  /** A TS type node: a (possibly generic) type reference, or any other type syntax. */
  datatype TypeNode =
    | TypeRef(typeName: TypeName, typeArgs: seq<TypeNode>)
    | OtherType(text: string)

  /** The `typeAnnotation` slot of a binding: absent, a TS annotation, or a Flow one. */
  datatype Annotation =
    | NoAnnotation
    | TSAnnotation(typeNode: TypeNode)
    | FlowAnnotation

  /**
   * A function parameter. `AssignmentParam` is `left = right`; the annotation
   * of such a parameter sits on its left-hand side, the pattern itself carries
   * none. `PlainParam` is every other parameter form (identifier, object or
   * array pattern, rest element).
   */
  datatype Param =
    | PlainParam(annotation: Annotation)
    | AssignmentParam(leftAnnotation: Annotation, right: Node)

  /** An object member key: an identifier, or any other key (string literal, number, ...). */
  datatype Key = IdentKey(name: string) | OtherKey(text: string)

  /** A member of an object literal. */
  datatype Member =
    | Property(key: Key, value: Node)
    | Method(key: Key, params: seq<Param>)
    | SpreadMember(argument: Node)

  /**
   * An expression or call argument. `Spread` and `Placeholder` may only stand
   * in argument position; every other constructor is an Expression.
   */
  datatype Node =
    | ObjectExpr(members: seq<Member>)
    | FunctionExpr(params: seq<Param>)
    | ArrayExpr(elements: seq<Node>)
    | StringLit(value: string)
    | Ident(name: string)
    | CallExpr(call: Call)
    | OtherExpr(text: string)
    | Spread(argument: Node)
    | Placeholder

  /** A call expression `callee<typeArgs>(arguments)`. */
  datatype Call = Call(callee: Node, typeArgs: seq<TypeNode>, arguments: seq<Node>)

  /** Babel's `t.isExpression`: everything except a spread element or argument placeholder. */
  predicate IsExpression(n: Node) {
    !n.Spread? && !n.Placeholder?
  }

  /** `getTypeAnnotation` on a slot: the inner type of a TS annotation, nothing otherwise. */
  function AnnotatedType(a: Annotation): (t: Option<TypeNode>)
    ensures t.Some? <==> a.TSAnnotation?
    ensures t.Some? ==> t.value == a.typeNode
  {
    match a
    case TSAnnotation(t) => Some(t)
    case _ => None
  }

  /** `getTypeAnnotation(param)`: an assignment pattern carries no annotation of its own. */
  function ParamType(p: Param): (t: Option<TypeNode>)
    ensures t.Some? <==> p.PlainParam? && p.annotation.TSAnnotation?
    ensures t.Some? ==> t.value == p.annotation.typeNode
  {
    match p
    case PlainParam(a) => AnnotatedType(a)
    case AssignmentParam(_, _) => None
  }

  /** An `ObjectProperty` whose key is the identifier `name` (methods and spreads do not qualify). */
  predicate IsIdentProperty(m: Member, name: string) {
    m.Property? && m.key == IdentKey(name)
  }

  /** `properties.some(p => isObjectProperty(p) && p.key is Identifier name)`. */
  predicate HasIdentProperty(ms: seq<Member>, name: string) {
    exists i :: 0 <= i < |ms| && IsIdentProperty(ms[i], name)
  }

  /** How many identifier-keyed properties named `name` an object literal holds. */
  function CountIdentProperty(ms: seq<Member>, name: string): nat {
    if |ms| == 0 then 0
    else (if IsIdentProperty(ms[0], name) then 1 else 0) + CountIdentProperty(ms[1..], name)
  }

  /** Having such a property and counting at least one of them are the same thing. */
  lemma {:induction false} HasIffCounted(ms: seq<Member>, name: string)
    ensures HasIdentProperty(ms, name) <==> CountIdentProperty(ms, name) > 0
  {
    if |ms| > 0 {
      HasIffCounted(ms[1..], name);
      if HasIdentProperty(ms[1..], name) {
        var i :| 0 <= i < |ms[1..]| && IsIdentProperty(ms[1..][i], name);
        assert IsIdentProperty(ms[i + 1], name);
      }
      if HasIdentProperty(ms, name) && !IsIdentProperty(ms[0], name) {
        var i :| 0 <= i < |ms| && IsIdentProperty(ms[i], name);
        assert i > 0;
        assert IsIdentProperty(ms[1..][i - 1], name);
      }
    }
  }

  /**
   * What an object-producing argument contributes when the component options
   * are read at run time, in order: each keyed member, or "all own properties
   * of" an expression that is spread or is itself not an object literal.
   */
  datatype Entry =
    | KeyedEntry(key: Key, value: Node)
    | MethodEntry(key: Key, params: seq<Param>)
    | SpreadOf(source: Node)

  function EntryOf(m: Member): Entry {
    match m
    case Property(k, v) => KeyedEntry(k, v)
    case Method(k, ps) => MethodEntry(k, ps)
    case SpreadMember(a) => SpreadOf(a)
  }

  /** The run-time entries of an options expression. */
  function Entries(n: Node): seq<Entry> {
    if n.ObjectExpr? then seq(|n.members|, i requires 0 <= i < |n.members| => EntryOf(n.members[i]))
    else [SpreadOf(n)]
  }
}

=== FILE: context.dfy ===
/**
 * The per-file state of the pass: the resolution context handed to the
 * runtime resolver, the set of runtime helpers it asked for, and the resolver
 * itself as an uninterpreted pair of functions of that context.
 */
module Context {
  import opened Wrappers
  import opened Ast

  /**
   * The fields of the resolution context that this pass reads or writes.
   * `propsTypeDecl`, `propsRuntimeDefaults` and `emitsTypeDecl` start out
   * absent and are overwritten call by call, never cleared.
   */
  datatype ResolveContext = ResolveContext(
    filename: string,
    source: string,
    propsTypeDecl: Option<TypeNode>,
    propsRuntimeDefaults: Option<Node>,
    emitsTypeDecl: Option<TypeNode>
  )

  /** The context together with the helper names registered so far. */
  datatype Env = Env(ctx: ResolveContext, helpers: set<string>)

  /** Before `pre` has run there is no context; visiting a call then is an internal error. */
  datatype PluginState = Unloaded | Loaded(env: Env)

  /** A resolver answer plus the helper keys it registered through `ctx.helper`. */
  datatype Resolved<T> = Resolved(value: T, helpers: set<string>)

  /**
   * The runtime resolver. `props` yields the runtime props expression, or
   * nothing (an empty answer included); `emits` yields the event names.
   * A `Failure` is a call of `ctx.error`, which throws.
   */
  datatype Resolver = Resolver(
    props: ResolveContext -> Result<Resolved<Option<Node>>, string>,
    emits: ResolveContext -> Result<Resolved<seq<string>>, string>
  )

  /** The fatal outcomes: a visit before `pre`, or a resolver error naming the file. */
  datatype PassError = ContextNotLoaded | ResolverFailure(filename: string, message: string)

  /** The result of one step: the updated environment and what the step produced. */
  datatype Step<T> = Step(env: Env, value: T)

  /** The state `pre` sets up for a file: no type declarations yet, no helpers. */
  function Pre(filename: string, code: string): (st: PluginState)
    ensures st.Loaded? && st.env.helpers == {}
    ensures st.env.ctx.filename == (if filename == "" then "unknown.js" else filename)
    ensures st.env.ctx.source == code
    ensures st.env.ctx.propsTypeDecl.None? && st.env.ctx.propsRuntimeDefaults.None?
    ensures st.env.ctx.emitsTypeDecl.None?
  {
    var name := if filename == "" then "unknown.js" else filename;
    Loaded(Env(ResolveContext(name, code, None, None, None), {}))
  }

  /** Adds the helper keys a resolver registered; the set only ever grows. */
  function Register(env: Env, keys: set<string>): (e: Env)
    ensures e.ctx == env.ctx
    ensures env.helpers <= e.helpers && keys <= e.helpers
    ensures forall k :: k in e.helpers ==> k in env.helpers || k in keys
  {
    env.(helpers := env.helpers + keys)
  }
}

=== FILE: locate.dfy ===
/**
 * The type-declaration locator: which TS type the pass hands to the resolver
 * for props (first parameter, else the first generic argument) and for emits
 * (`SetupContext<E>` on the second parameter, else the second generic argument).
 */
module Locate {
  import opened Wrappers
  import opened Ast
  import opened Context

  /** The generic argument at `i` of the `defineComponent<...>` call, if written. */
  function TypeArgAt(typeArgs: seq<TypeNode>, i: nat): (t: Option<TypeNode>)
    ensures t.Some? <==> i < |typeArgs|
    ensures t.Some? ==> t.value == typeArgs[i]
  {
    if i < |typeArgs| then Some(typeArgs[i]) else None
  }

  /** The props type a parameter declares itself: its annotation, or its left side's. */
  function DeclaredPropsType(p: Param): Option<TypeNode> {
    match p
    case PlainParam(a) => AnnotatedType(a)
    case AssignmentParam(left, _) => AnnotatedType(left)
  }

  /**
   * The context update at the start of `processProps`. With no first parameter
   * the generic default replaces the props type only if there is one; with a
   * parameter the props type becomes its own annotation, else the default,
   * else absent; only an assignment pattern records its right side as the
   * runtime defaults. The filename, source and emits type are not touched.
   */
  function UpdatePropsContext(ctx: ResolveContext, params: seq<Param>, default: Option<TypeNode>): (c: ResolveContext)
    ensures c.filename == ctx.filename && c.source == ctx.source && c.emitsTypeDecl == ctx.emitsTypeDecl
    ensures |params| == 0 ==> c.propsTypeDecl == (if default.Some? then default else ctx.propsTypeDecl)
    ensures |params| > 0 ==> c.propsTypeDecl == DeclaredPropsType(params[0]).OrElse(default)
    ensures c.propsRuntimeDefaults != ctx.propsRuntimeDefaults ==> |params| > 0 && params[0].AssignmentParam?
    ensures |params| > 0 && params[0].AssignmentParam? ==> c.propsRuntimeDefaults == Some(params[0].right)
  {
    if |params| == 0 then
      if default.Some? then ctx.(propsTypeDecl := default) else ctx
    else
      match params[0]
      case AssignmentParam(left, right) =>
        ctx.(propsTypeDecl := AnnotatedType(left).OrElse(default), propsRuntimeDefaults := Some(right))
      case PlainParam(a) =>
        ctx.(propsTypeDecl := AnnotatedType(a).OrElse(default))
  }

  /**
   * What the previous call left in the context reaches the resolver exactly
   * when the function has no first parameter and the call no generic props
   * argument: for every other shape two different prior contexts give the
   * same props type.
   */
  lemma StalePropsTypeExactlyWithoutParamOrDefault(c1: ResolveContext, c2: ResolveContext, params: seq<Param>, default: Option<TypeNode>)
    ensures UpdatePropsContext(c1, params, default).propsTypeDecl == UpdatePropsContext(c2, params, default).propsTypeDecl
      <==> |params| > 0 || default.Some? || c1.propsTypeDecl == c2.propsTypeDecl
  {
  }

  /** A `SetupContext` reference: a TS type reference whose name is the bare identifier. */
  predicate IsSetupContextRef(t: TypeNode) {
    t.TypeRef? && t.typeName == TypeIdent("SetupContext")
  }

  /**
   * The emits type `processEmits` passes on, if any. A second parameter
   * annotated `SetupContext<E, ...>` gives `E`, and `SetupContext` without
   * type arguments gives nothing at all; any other second parameter, or
   * none, gives the generic default.
   */
  function SelectEmitsType(params: seq<Param>, default: Option<TypeNode>): (t: Option<TypeNode>)
    ensures t.Some? ==> t == default || (|params| > 1 && ParamType(params[1]).Some?
                                         && IsSetupContextRef(ParamType(params[1]).value)
                                         && |ParamType(params[1]).value.typeArgs| > 0
                                         && t.value == ParamType(params[1]).value.typeArgs[0])
  {
    var setupCtx := if |params| > 1 then ParamType(params[1]) else None;
    if setupCtx.None? || !IsSetupContextRef(setupCtx.value) then
      default
    else if |setupCtx.value.typeArgs| == 0 then
      None
    else
      Some(setupCtx.value.typeArgs[0])
  }

  /** The first type argument of `SetupContext<...>` wins over any generic default. */
  lemma SetupContextArgumentWins(params: seq<Param>, default: Option<TypeNode>, e: TypeNode, rest: seq<TypeNode>)
    requires |params| > 1 && ParamType(params[1]) == Some(TypeRef(TypeIdent("SetupContext"), [e] + rest))
    ensures SelectEmitsType(params, default) == Some(e)
  {
  }

  /** A bare `SetupContext` yields no emits type and does not fall back to the default. */
  lemma BareSetupContextYieldsNothing(params: seq<Param>, default: Option<TypeNode>)
    requires |params| > 1 && ParamType(params[1]) == Some(TypeRef(TypeIdent("SetupContext"), []))
    ensures SelectEmitsType(params, default).None?
  {
  }

  /**
   * Without a `SetupContext` annotation on the second parameter (none at all,
   * a Flow one, one on an assignment pattern, another type, or a qualified
   * `X.SetupContext`) the generic default is used as is.
   */
  lemma NoSetupContextFallsBack(params: seq<Param>, default: Option<TypeNode>)
    requires |params| <= 1 || ParamType(params[1]).None? || !IsSetupContextRef(ParamType(params[1]).value)
    ensures SelectEmitsType(params, default) == default
  {
  }
}

=== FILE: merge.dfy ===
/**
 * `addProperty`: merging one synthesized key (`props`, `emits`, `name`) into a
 * component's options argument.
 */
module Merge {
  import opened Ast

  /**
   * Prepends `key: value` to an object literal (in place in the source, so the
   * result is that same object); wraps any other expression `e` as
   * `{key: value, ...e}`; returns a spread element or argument placeholder as is.
   */
  function AddProperty(target: Node, key: Key, value: Node): (r: Node)
    ensures r.ObjectExpr? <==> IsExpression(target)
    ensures target.ObjectExpr? ==> |r.members| == |target.members| + 1
  {
    match target
    case ObjectExpr(ms) => ObjectExpr([Property(key, value)] + ms)
    case Spread(_) => target
    case Placeholder => target
    case _ => ObjectExpr([Property(key, value), SpreadMember(target)])
  }

  /** On an object literal the new property is at index 0 and every old member shifts by one. */
  lemma AddPropertyPrependsToObject(target: Node, key: Key, value: Node)
    requires target.ObjectExpr?
    ensures var r := AddProperty(target, key, value);
      && r.members[0] == Property(key, value)
      && forall i :: 0 <= i < |target.members| ==> r.members[i + 1] == target.members[i]
  {
  }

  /** Any other expression is not altered but nested, once, as a spread behind the new property. */
  lemma AddPropertyWrapsExpression(target: Node, key: Key, value: Node)
    requires IsExpression(target) && !target.ObjectExpr?
    ensures AddProperty(target, key, value) == ObjectExpr([Property(key, value), SpreadMember(target)])
  {
  }

  /** A spread element or argument placeholder cannot take a property and comes back unchanged. */
  lemma AddPropertyKeepsNonExpression(target: Node, key: Key, value: Node)
    requires !IsExpression(target)
    ensures AddProperty(target, key, value) == target
  {
  }

  /**
   * Read at run time, the merged options are the new entry followed by exactly
   * the entries the original expression contributed, in their original order;
   * this holds for object literals and wrapped expressions alike.
   */
  lemma AddPropertyEntries(target: Node, key: Key, value: Node)
    ensures IsExpression(target) ==>
      Entries(AddProperty(target, key, value)) == [KeyedEntry(key, value)] + Entries(target)
  {
    if !IsExpression(target) {
      return;
    }
    var lhs := Entries(AddProperty(target, key, value));
    var rhs := [KeyedEntry(key, value)] + Entries(target);
    assert |lhs| == |rhs|;
    forall i | 0 <= i < |lhs|
      ensures lhs[i] == rhs[i]
    {
      if i > 0 && target.ObjectExpr? {
        assert lhs[i] == EntryOf(target.members[i - 1]);
      }
    }
  }

  /** Merging an identifier-keyed property adds exactly one such key and never removes one. */
  lemma AddPropertyCountsOneMore(target: Node, name: string, value: Node)
    requires IsExpression(target)
    ensures var r := AddProperty(target, IdentKey(name), value);
      CountIdentProperty(r.members, name)
        == (if target.ObjectExpr? then CountIdentProperty(target.members, name) else 0) + 1
  {
    var r := AddProperty(target, IdentKey(name), value);
    assert r.members[1..] == (if target.ObjectExpr? then target.members else [SpreadMember(target)]);
    if !target.ObjectExpr? {
      assert CountIdentProperty([SpreadMember(target)], name) == 0;
    }
  }
}

=== FILE: naming.dfy ===
/**
 * `inferComponentName`: for `const Foo = defineComponent(...)`, merge
 * `name: "Foo"` into the call's second argument.
 */
module Naming {
  import opened Wrappers
  import opened Ast
  import opened Provenance
  import opened Merge
  import opened Visitor

  const NameKey: Key := IdentKey("name")

  /** The binding target of a variable declarator: an identifier, or a destructuring pattern. */
  datatype Pattern = IdentPattern(name: string) | OtherPattern

  /** `id = init` in a variable declaration. */
  datatype Declarator = Declarator(id: Pattern, init: Option<Node>)

  /**
   * The declarators the inferrer rewrites: an identifier bound to a call of
   * the identifier `defineComponent`, which passes the provenance check and
   * has at least one argument.
   */
  predicate Nameable(d: Declarator, binding: Option<Declaration>) {
    && d.id.IdentPattern?
    && d.init.Some? && d.init.value.CallExpr?
    && d.init.value.call.callee == Ident(DefineComponent)
    && CheckDefineComponent(binding)
    && |d.init.value.call.arguments| > 0
  }

  /**
   * Leaves every other declarator alone. For a nameable one, a lone argument
   * first gains an empty `{}`; then `name: "<id>"` is merged into the second
   * argument by the `addProperty` rule, without looking for an existing `name`.
   * The first argument and any later ones are untouched.
   */
  function InferComponentName(d: Declarator, binding: Option<Declaration>): (r: Declarator)
    ensures !Nameable(d, binding) ==> r == d
    ensures Nameable(d, binding) ==>
      var args := d.init.value.call.arguments;
      && r.id == d.id
      && r.init.Some? && r.init.value.CallExpr?
      && var out := r.init.value.call;
         && out.callee == d.init.value.call.callee && out.typeArgs == d.init.value.call.typeArgs
         && |out.arguments| == (if |args| == 1 then 2 else |args|)
         && out.arguments[0] == args[0]
         && (|args| > 2 ==> out.arguments[2..] == args[2..])
         && (IsExpression(out.arguments[1]) <==> |args| == 1 || IsExpression(args[1]))
         && (IsExpression(out.arguments[1]) ==>
               Entries(out.arguments[1])
                 == [KeyedEntry(NameKey, StringLit(d.id.name))]
                    + Entries(if |args| == 1 then ObjectExpr([]) else args[1]))
         && (!IsExpression(out.arguments[1]) ==> out.arguments[1] == args[1])
  {
    if !Nameable(d, binding) then d
    else
      var call := d.init.value.call;
      var args := if |call.arguments| == 1 then call.arguments + [ObjectExpr([])] else call.arguments;
      AddPropertyEntries(args[1], NameKey, StringLit(d.id.name));
      var named := args[1 := AddProperty(args[1], NameKey, StringLit(d.id.name))];
      Declarator(d.id, Some(CallExpr(call.(arguments := named))))
  }

  /** `const Foo = defineComponent(() => {})` becomes `defineComponent(() => {}, { name: "Foo" })`. */
  lemma NoOptionsExample(f: Node)
    ensures var d := Declarator(IdentPattern("Foo"), Some(CallExpr(Call(Ident(DefineComponent), [], [f]))));
      InferComponentName(d, Some(ImportDeclaration("vue"))).init
        == Some(CallExpr(Call(Ident(DefineComponent), [], [f, ObjectExpr([Property(NameKey, StringLit("Foo"))])])))
  {
    var d := Declarator(IdentPattern("Foo"), Some(CallExpr(Call(Ident(DefineComponent), [], [f]))));
    assert Nameable(d, Some(ImportDeclaration("vue")));
    assert ([f] + [ObjectExpr([])])[1] == ObjectExpr([]);
    assert [Property(NameKey, StringLit("Foo"))] + [] == [Property(NameKey, StringLit("Foo"))];
    assert ([f] + [ObjectExpr([])])[1 := ObjectExpr([Property(NameKey, StringLit("Foo"))])]
        == [f, ObjectExpr([Property(NameKey, StringLit("Foo"))])];
  }

  /** `{ foo: 'bar' }` becomes `{ name: "Foo", foo: 'bar' }`: the name first, the user's key kept. */
  lemma ObjectOptionsExample(f: Node)
    ensures var foo := Property(IdentKey("foo"), StringLit("bar"));
      var d := Declarator(IdentPattern("Foo"), Some(CallExpr(Call(Ident(DefineComponent), [], [f, ObjectExpr([foo])]))));
      InferComponentName(d, Some(ImportDeclaration("vue"))).init
        == Some(CallExpr(Call(Ident(DefineComponent), [], [f, ObjectExpr([Property(NameKey, StringLit("Foo")), foo])])))
  {
    var foo := Property(IdentKey("foo"), StringLit("bar"));
    var d := Declarator(IdentPattern("Foo"), Some(CallExpr(Call(Ident(DefineComponent), [], [f, ObjectExpr([foo])]))));
    assert Nameable(d, Some(ImportDeclaration("vue")));
    var named := ObjectExpr([Property(NameKey, StringLit("Foo")), foo]);
    assert [Property(NameKey, StringLit("Foo"))] + [foo] == named.members;
    assert AddProperty(ObjectExpr([foo]), NameKey, StringLit("Foo")) == named;
    assert [f, ObjectExpr([foo])][1 := named] == [f, named];
  }

  /** An identifier `opts` becomes `{ name: "Foo", ...opts }`. */
  lemma IdentifierOptionsExample(f: Node)
    ensures var d := Declarator(IdentPattern("Foo"), Some(CallExpr(Call(Ident(DefineComponent), [], [f, Ident("opts")]))));
      InferComponentName(d, Some(ImportDeclaration("vue"))).init
        == Some(CallExpr(Call(Ident(DefineComponent), [], [f, ObjectExpr([Property(NameKey, StringLit("Foo")), SpreadMember(Ident("opts"))])])))
  {
    var d := Declarator(IdentPattern("Foo"), Some(CallExpr(Call(Ident(DefineComponent), [], [f, Ident("opts")]))));
    assert Nameable(d, Some(ImportDeclaration("vue")));
    var named := ObjectExpr([Property(NameKey, StringLit("Foo")), SpreadMember(Ident("opts"))]);
    assert AddProperty(Ident("opts"), NameKey, StringLit("Foo")) == named;
    assert [f, Ident("opts")][1 := named] == [f, named];
  }

  /** `defineComponent(() => {}, ...args)` keeps its spread argument and gets no name. */
  lemma RestArgumentExample(f: Node)
    ensures var d := Declarator(IdentPattern("Foo"), Some(CallExpr(Call(Ident(DefineComponent), [], [f, Spread(Ident("args"))]))));
      InferComponentName(d, Some(ImportDeclaration("vue"))) == d
  {
    var d := Declarator(IdentPattern("Foo"), Some(CallExpr(Call(Ident(DefineComponent), [], [f, Spread(Ident("args"))]))));
    assert Nameable(d, Some(ImportDeclaration("vue")));
    var args := [f, Spread(Ident("args"))];
    assert args[1 := args[1]] == args;
  }

  /** A locally declared `defineComponent` is not Vue's: nothing is named. */
  lemma LocalDefineComponentNotNamed(f: Node)
    ensures var d := Declarator(IdentPattern("Foo"), Some(CallExpr(Call(Ident(DefineComponent), [], [f]))));
      InferComponentName(d, Some(OtherDeclaration)) == d
  {
  }

  /**
   * The inferrer does not look for an existing `name`: on object options every
   * run adds one more identifier-keyed `name` property.
   */
  lemma NameAddedEvenIfPresent(d: Declarator, binding: Option<Declaration>)
    requires Nameable(d, binding)
    requires |d.init.value.call.arguments| > 1 && d.init.value.call.arguments[1].ObjectExpr?
    ensures var out := InferComponentName(d, binding).init.value.call.arguments[1];
      && out.ObjectExpr?
      && CountIdentProperty(out.members, "name") == CountIdentProperty(d.init.value.call.arguments[1].members, "name") + 1
  {
    AddPropertyCountsOneMore(d.init.value.call.arguments[1], "name", StringLit(d.id.name));
  }
}

=== FILE: pass.dfy ===
/**
 * The pass over one file: every matched call is visited in document order
 * with the same context, which is threaded from one call to the next.
 */
module Pass {
  import opened Wrappers
  import opened Ast
  import opened Context
  import opened Provenance
  import opened Synthesize
  import opened Visitor
  import opened VisitorFacts

  /** A call expression in the file, with what `defineComponent` resolves to at that point. */
  datatype Site = Site(binding: Option<Declaration>, call: Call)

  /** The state after the file and the rewritten calls, in the same order. */
  datatype FileResult = FileResult(state: PluginState, calls: seq<Call>)

  /**
   * Visits the calls in order, each with the state the previous one left.
   * The first error ends the whole file; the helper set only grows.
   */
  function TransformCalls(st: PluginState, sites: seq<Site>, resolver: Resolver): (r: Result<FileResult, PassError>)
    ensures r.Success? ==> |r.value.calls| == |sites|
    ensures r.Success? && st.Loaded? ==> r.value.state.Loaded? && st.env.helpers <= r.value.state.env.helpers
    ensures st.Unloaded? && |sites| > 0 ==> r == Failure(ContextNotLoaded)
    ensures r.Failure? && st.Loaded? ==> r.error.ResolverFailure?
    decreases |sites|
  {
    if |sites| == 0 then Success(FileResult(st, []))
    else
      var v :- VisitCall(st, sites[0].binding, sites[0].call, resolver);
      var rest :- TransformCalls(v.state, sites[1..], resolver);
      Success(FileResult(rest.state, [v.call] + rest.calls))
  }

  /**
   * Visiting `a + b` is visiting `a` and then `b` from the state `a` left:
   * each call sees what every earlier call did to the context, the rewritten
   * calls come out in order, and the first error ends the file.
   */
  lemma {:induction false} TransformCallsAppend(st: PluginState, a: seq<Site>, b: seq<Site>, resolver: Resolver)
    ensures TransformCalls(st, a + b, resolver)
      == match TransformCalls(st, a, resolver)
         case Failure(e) => Failure(e)
         case Success(x) =>
           match TransformCalls(x.state, b, resolver)
           case Failure(e) => Failure(e)
           case Success(y) => Success(FileResult(y.state, x.calls + y.calls))
    decreases |a|
  {
    if |a| == 0 {
      assert a + b == b;
      var y := TransformCalls(st, b, resolver);
      if y.Success? {
        assert [] + y.value.calls == y.value.calls;
      }
    } else {
      assert (a + b)[0] == a[0] && (a + b)[1..] == a[1..] + b;
      var v := VisitCall(st, a[0].binding, a[0].call, resolver);
      if v.Success? {
        TransformCallsAppend(v.value.state, a[1..], b, resolver);
        var x := TransformCalls(v.value.state, a[1..], resolver);
        if x.Success? {
          var y := TransformCalls(x.value.state, b, resolver);
          if y.Success? {
            assert [v.value.call] + (x.value.calls + y.value.calls) == ([v.value.call] + x.value.calls) + y.value.calls;
          }
        }
      }
    }
  }

  /** The first call of a file is visited with the state the file started in, and later calls with what it left. */
  lemma TransformCallsThreads(st: PluginState, s: Site, rest: seq<Site>, resolver: Resolver)
    ensures var v := VisitCall(st, s.binding, s.call, resolver);
      var r := TransformCalls(st, [s] + rest, resolver);
      && (v.Failure? ==> r == Failure(v.error))
      && (v.Success? ==> r.Success? == TransformCalls(v.value.state, rest, resolver).Success?)
      && (r.Success? ==> r.value.calls[0] == v.value.call
                         && r.value.calls[1..] == TransformCalls(v.value.state, rest, resolver).value.calls)
  {
    assert ([s] + rest)[0] == s && ([s] + rest)[1..] == rest;
  }

  /** The call-specific context fields cleared, as a per-call reset would leave them. */
  function ResetCallFields(st: PluginState): (s: PluginState)
    ensures s.Loaded? <==> st.Loaded?
    ensures s.Loaded? ==> s.env.helpers == st.env.helpers
    ensures s.Loaded? ==> s.env.ctx.filename == st.env.ctx.filename && s.env.ctx.source == st.env.ctx.source
    ensures s.Loaded? ==> s.env.ctx.propsTypeDecl.None? && s.env.ctx.propsRuntimeDefaults.None? && s.env.ctx.emitsTypeDecl.None?
  {
    match st
    case Unloaded => Unloaded
    case Loaded(env) =>
      Loaded(env.(ctx := env.ctx.(propsTypeDecl := None, propsRuntimeDefaults := None, emitsTypeDecl := None)))
  }

  /** The visitor as evidently intended: each call starts from a cleared context. */
  function VisitCallFresh(st: PluginState, binding: Option<Declaration>, call: Call, resolver: Resolver)
    : (r: Result<Visited, PassError>)
    ensures st.Unloaded? ==> r == Failure(ContextNotLoaded)
    ensures r.Success? ==> r.value.state.Loaded? && st.env.helpers <= r.value.state.env.helpers
  {
    VisitCall(ResetCallFields(st), binding, call, resolver)
  }

  /**
   * With the reset, what a call becomes no longer depends on the calls before
   * it: two states that differ only in what earlier calls left behind give the
   * same rewrite and the same error.
   */
  lemma FreshVisitIgnoresEarlierCalls(e1: Env, e2: Env, binding: Option<Declaration>, call: Call, resolver: Resolver)
    requires e1.ctx.filename == e2.ctx.filename && e1.ctx.source == e2.ctx.source && e1.helpers == e2.helpers
    ensures var r1 := VisitCallFresh(Loaded(e1), binding, call, resolver);
      var r2 := VisitCallFresh(Loaded(e2), binding, call, resolver);
      r1 == r2
  {
    assert ResetCallFields(Loaded(e1)) == ResetCallFields(Loaded(e2));
  }

  /** `defineComponent((props: P) => ...)`. */
  function TypedCall(p: TypeNode): Call {
    Call(Ident(DefineComponent), [], [FunctionExpr([PlainParam(TSAnnotation(p))])])
  }

  /** `defineComponent(() => ...)`: no parameter, no generic argument. */
  function UntypedCall(): Call {
    Call(Ident(DefineComponent), [], [FunctionExpr([])])
  }

  /** Visiting a call whose first parameter is annotated `P` leaves `P` in the context. */
  lemma TypedCallLeavesPropsType(env: Env, p: TypeNode)
    ensures var r := VisitCall(Loaded(env), None, TypedCall(p), PropsOnlyResolver());
      r.Success? && r.value.state.Loaded? && r.value.state.env.ctx.propsTypeDecl == Some(p)
  {
    var params := [PlainParam(TSAnnotation(p))];
    assert ClassifyComponent(TypedCall(p).arguments) == FunctionShape(params);
    var pp := ProcessProps(env, params, ObjectExpr([]), None, PropsOnlyResolver());
    assert pp.Success? && pp.value.env.ctx.propsTypeDecl == Some(p);
    assert ProcessEmits(pp.value.env, params, pp.value.value.GetOr(ObjectExpr([])), None, PropsOnlyResolver())
        == Success(Step(pp.value.env, None));
  }

  /** A props type left in the context reaches an untyped call as written. */
  lemma StalePropsTypeReachesUntypedCall(env: Env)
    requires env.ctx.propsTypeDecl.Some?
    ensures var r := VisitCall(Loaded(env), None, UntypedCall(), PropsOnlyResolver());
      r.Success? && r.value.call.arguments
        == [FunctionExpr([]), ObjectExpr([Property(PropsKey, OtherExpr("{ msg: String }"))])]
  {
    assert ClassifyComponent(UntypedCall().arguments) == FunctionShape([]);
    var pp := ProcessProps(env, [], ObjectExpr([]), None, PropsOnlyResolver());
    assert [Property(PropsKey, OtherExpr("{ msg: String }"))] + [] == [Property(PropsKey, OtherExpr("{ msg: String }"))];
    assert pp.Success? && pp.value.value == Some(ObjectExpr([Property(PropsKey, OtherExpr("{ msg: String }"))]));
    assert ProcessEmits(pp.value.env, [], pp.value.value.value, None, PropsOnlyResolver())
        == Success(Step(pp.value.env, None));
  }

  /** With the per-call reset the untyped call only gains its empty options object. */
  lemma FreshUntypedCallGetsNoProps(env: Env)
    ensures var r := VisitCallFresh(Loaded(env), None, UntypedCall(), PropsOnlyResolver());
      r.Success? && r.value.call.arguments == [FunctionExpr([]), ObjectExpr([])]
  {
    assert ClassifyComponent(UntypedCall().arguments) == FunctionShape([]);
  }

  /**
   * A file with `defineComponent((props: P) => ...)` followed by
   * `defineComponent(() => ...)`: as written, the second call is given the
   * first call's props.
   */
  lemma EarlierPropsLeakIntoLaterCall(filename: string, code: string, p: TypeNode)
    ensures var r := TransformCalls(Pre(filename, code), [Site(None, TypedCall(p)), Site(None, UntypedCall())], PropsOnlyResolver());
      r.Success? && r.value.calls[1].arguments
        == [FunctionExpr([]), ObjectExpr([Property(PropsKey, OtherExpr("{ msg: String }"))])]
  {
    var st := Pre(filename, code);
    var sites := [Site(None, TypedCall(p)), Site(None, UntypedCall())];
    TypedCallLeavesPropsType(st.env, p);
    var v := VisitCall(st, None, TypedCall(p), PropsOnlyResolver()).value;
    StalePropsTypeReachesUntypedCall(v.state.env);
    var w := VisitCall(v.state, None, UntypedCall(), PropsOnlyResolver()).value;
    assert sites[1..] == [Site(None, UntypedCall())];
    assert [Site(None, UntypedCall())][1..] == [];
    assert TransformCalls(w.state, [], PropsOnlyResolver()) == Success(FileResult(w.state, []));
    assert [w.call] + [] == [w.call];
    assert TransformCalls(v.state, sites[1..], PropsOnlyResolver()) == Success(FileResult(w.state, [w.call]));
  }
}

=== FILE: provenance.dfy ===
/**
 * `checkDefineComponent`: a `defineComponent` call is only rewritten when the
 * name is unbound or is imported from Vue.
 */
module Provenance {
  import opened Wrappers

  /**
   * The parent node of the path that declares the `defineComponent` binding:
   * an import declaration with its source module, or anything else (a
   * variable declaration, a function, a class, ...).
   */
  datatype Declaration = ImportDeclaration(source: string) | OtherDeclaration

  /**
   * The regular expression `^@?vue(\/|$)`, matched left to right: an optional
   * `@`, the letters `vue`, then either a `/` or the end of the string. When
   * the text starts with `@`, backtracking to the empty `@?` would need a `v`
   * at position 0, so consuming the `@` is the only way to succeed.
   */
  predicate MatchesVueSource(s: string) {
    var rest := if |s| > 0 && s[0] == '@' then s[1..] else s;
    |rest| >= 3 && rest[..3] == "vue" && (|rest| == 3 || rest[3] == '/')
  }

  /**
   * True when `defineComponent` has no binding in scope; otherwise true
   * exactly when it is imported from `vue`, `@vue`, or a sub-path of either.
   */
  function CheckDefineComponent(binding: Option<Declaration>): (eligible: bool)
    ensures eligible <==>
      || binding.None?
      || (&& binding.value.ImportDeclaration?
          && var src := binding.value.source;
             src == "vue" || src == "@vue" || "vue/" <= src || "@vue/" <= src)
  {
    match binding
    case None => true
    case Some(decl) =>
      VueSourceByPrefix(if decl.ImportDeclaration? then decl.source else "");
      decl.ImportDeclaration? && MatchesVueSource(decl.source)
  }

  /** The pattern accepts exactly `vue`, `@vue`, and everything under `vue/` or `@vue/`. */
  lemma VueSourceByPrefix(s: string)
    ensures MatchesVueSource(s) <==> s == "vue" || s == "@vue" || "vue/" <= s || "@vue/" <= s
  {
    if |s| > 0 && s[0] == '@' {
      var rest := s[1..];
      assert s == "@" + rest;
      if |rest| >= 4 {
        assert "@vue/" <= s <==> rest[..4] == "vue/";
        assert rest[..4] == rest[..3] + [rest[3]];
      }
      if |rest| == 3 {
        assert rest == rest[..3];
      }
      assert s != "vue";
    } else {
      if |s| >= 4 {
        assert "vue/" <= s <==> s[..4] == "vue/";
        assert s[..4] == s[..3] + [s[3]];
      }
      if |s| == 3 {
        assert s == s[..3];
      }
      assert s != "@vue";
    }
  }

  /** The import sources named in the pass's own tests and their look-alikes. */
  lemma ProvenanceExamples()
    ensures CheckDefineComponent(None)
    ensures CheckDefineComponent(Some(ImportDeclaration("vue")))
    ensures CheckDefineComponent(Some(ImportDeclaration("vue/dist/vue.esm-bundler")))
    ensures CheckDefineComponent(Some(ImportDeclaration("@vue/runtime-core")))
    ensures !CheckDefineComponent(Some(ImportDeclaration("vuex")))
    ensures !CheckDefineComponent(Some(ImportDeclaration("vue-router")))
    ensures !CheckDefineComponent(Some(ImportDeclaration("my-vue")))
    ensures !CheckDefineComponent(Some(OtherDeclaration))
  {
    assert "vue/" <= "vue/dist/vue.esm-bundler";
    assert "@vue/" <= "@vue/runtime-core";
    assert !("vue/" <= "vuex") && !("@vue/" <= "vuex");
    assert !("vue/" <= "vue-router") && !("@vue/" <= "vue-router");
    assert !("vue/" <= "my-vue") && !("@vue/" <= "my-vue");
  }
}

=== FILE: synthesize.dfy ===
/**
 * `processProps`, `addEmit` and `processEmits`: set the context, ask the
 * resolver, and merge the answer into the options as a `props` or `emits` key.
 */
module Synthesize {
  import opened Wrappers
  import opened Ast
  import opened Context
  import opened Locate
  import opened Merge

  const PropsKey: Key := IdentKey("props")
  const EmitsKey: Key := IdentKey("emits")

  /** The runtime emits value: an array literal of one string literal per event name. */
  function EmitsArray(names: seq<string>): (a: Node)
    ensures a.ArrayExpr? && |a.elements| == |names|
  {
    ArrayExpr(seq(|names|, i requires 0 <= i < |names| => StringLit(names[i])))
  }

  /** Reads an array of string literals back into its strings; anything else is not one. */
  function StringLiterals(elements: seq<Node>): (names: Option<seq<string>>)
    ensures names.Some? ==> |names.value| == |elements|
  {
    if |elements| == 0 then Some([])
    else if !elements[0].StringLit? then None
    else
      match StringLiterals(elements[1..])
      case None => None
      case Some(rest) => Some([elements[0].value] + rest)
  }

  /** The emits array keeps every event name, in the resolver's order: it reads back as given. */
  lemma {:induction false} EmitsArrayRoundTrip(names: seq<string>)
    ensures StringLiterals(EmitsArray(names).elements) == Some(names)
  {
    if |names| > 0 {
      EmitsArrayRoundTrip(names[1..]);
      assert EmitsArray(names).elements[1..] == EmitsArray(names[1..]).elements;
      assert [names[0]] + names[1..] == names;
    }
  }

  /**
   * The props expression the resolver answers in context `c`: nothing when
   * the context holds no props type, when the resolver answers nothing, or
   * when it fails.
   */
  function PropsAnswer(c: ResolveContext, resolver: Resolver): Option<Node> {
    if c.propsTypeDecl.None? then None
    else
      match resolver.props(c)
      case Failure(_) => None
      case Success(answer) => answer.value
  }

  /**
   * The `emits` value the resolver answers for the emits type `t`, asked with
   * `t` recorded in `c`: nothing without a type or when the resolver fails.
   */
  function EmitsAnswer(c: ResolveContext, t: Option<TypeNode>, resolver: Resolver): Option<Node> {
    if t.None? then None
    else
      match resolver.emits(c.(emitsTypeDecl := t))
      case Failure(_) => None
      case Success(answer) => Some(EmitsArray(answer.value))
  }

  /** The message of the props resolver's error in context `c`; none when it is not asked or does not fail. */
  function PropsFailure(c: ResolveContext, resolver: Resolver): Option<string> {
    if c.propsTypeDecl.None? then None
    else
      match resolver.props(c)
      case Failure(m) => Some(m)
      case Success(_) => None
  }

  /** The message of the emits resolver's error for the emits type `t`; none when it is not asked or does not fail. */
  function EmitsFailure(c: ResolveContext, t: Option<TypeNode>, resolver: Resolver): Option<string> {
    if t.None? then None
    else
      match resolver.emits(c.(emitsTypeDecl := t))
      case Failure(m) => Some(m)
      case Success(_) => None
  }

  /** The helper keys the props resolver registers in context `c`; none when it is not asked or fails. */
  function PropsHelpers(c: ResolveContext, resolver: Resolver): set<string> {
    if c.propsTypeDecl.None? then {}
    else
      match resolver.props(c)
      case Failure(_) => {}
      case Success(answer) => answer.helpers
  }

  /** The helper keys the emits resolver registers for the emits type `t`; none when it is not asked or fails. */
  function EmitsHelpers(c: ResolveContext, t: Option<TypeNode>, resolver: Resolver): set<string> {
    if t.None? then {}
    else
      match resolver.emits(c.(emitsTypeDecl := t))
      case Failure(_) => {}
      case Success(answer) => answer.helpers
  }

  /** The member a merge of `key: v` prepends, none without a value. */
  function MemberFor(key: Key, v: Option<Node>): seq<Member> {
    if v.Some? then [Property(key, v.value)] else []
  }

  /** The run-time entry a merge of `key: v` contributes, none without a value. */
  function EntryFor(key: Key, v: Option<Node>): seq<Entry> {
    if v.Some? then [KeyedEntry(key, v.value)] else []
  }

  /**
   * `processProps`: update the context from the function's first parameter,
   * then, if a props type is now set, ask the resolver. The options come back
   * with one identifier-keyed `props` entry prepended to what they held
   * exactly when the resolver produced an expression; otherwise there is no
   * result and nothing is merged. A resolver error aborts with the file name.
   */
  function ProcessProps(env: Env, params: seq<Param>, options: Node, default: Option<TypeNode>, resolver: Resolver)
    : (r: Result<Step<Option<Node>>, PassError>)
    ensures var c := UpdatePropsContext(env.ctx, params, default);
      && (r.Success? ==> r.value.env.ctx == c && env.helpers <= r.value.env.helpers)
      && (c.propsTypeDecl.None? ==> r == Success(Step(env.(ctx := c), None)))
      && (c.propsTypeDecl.Some? ==>
            match resolver.props(c)
            case Failure(m) => r == Failure(ResolverFailure(c.filename, m))
            case Success(answer) =>
              && r.Success?
              && r.value.env.helpers == env.helpers + answer.helpers
              && (r.value.value.Some? <==> answer.value.Some?)
              && (r.value.value.Some? ==> r.value.value.value == AddProperty(options, PropsKey, answer.value.value))
              && (r.value.value.Some? && IsExpression(options) ==>
                    Entries(r.value.value.value) == [KeyedEntry(PropsKey, answer.value.value)] + Entries(options)))
    ensures r.Success? ==> var v := PropsAnswer(UpdatePropsContext(env.ctx, params, default), resolver);
      r.value.value == if v.Some? then Some(AddProperty(options, PropsKey, v.value)) else None
    ensures var c := UpdatePropsContext(env.ctx, params, default);
      && (r.Failure? <==> PropsFailure(c, resolver).Some?)
      && (r.Failure? ==> r.error == ResolverFailure(env.ctx.filename, PropsFailure(c, resolver).value))
      && (r.Success? ==> r.value.env.helpers == env.helpers + PropsHelpers(c, resolver))
  {
    var c := UpdatePropsContext(env.ctx, params, default);
    var env1 := env.(ctx := c);
    if c.propsTypeDecl.None? then
      Success(Step(env1, None))
    else
      match resolver.props(c)
      case Failure(m) => Failure(ResolverFailure(c.filename, m))
      case Success(Resolved(runtimeProps, keys)) =>
        if runtimeProps.None? then
          Success(Step(Register(env1, keys), None))
        else
          AddPropertyEntries(options, PropsKey, runtimeProps.value);
          Success(Step(Register(env1, keys), Some(AddProperty(options, PropsKey, runtimeProps.value))))
  }

  /**
   * `addEmit`: record the emits type in the context, then ask the resolver
   * with that context. The options gain one `emits` entry whose value lists
   * the resolver's event names in order.
   */
  function AddEmit(env: Env, options: Node, emitType: TypeNode, resolver: Resolver)
    : (r: Result<Step<Option<Node>>, PassError>)
    ensures var c := env.ctx.(emitsTypeDecl := Some(emitType));
      match resolver.emits(c)
      case Failure(m) => r == Failure(ResolverFailure(c.filename, m))
      case Success(answer) =>
        && r.Success?
        && r.value.env == Env(c, env.helpers + answer.helpers)
        && r.value.value == Some(AddProperty(options, EmitsKey, EmitsArray(answer.value)))
        && (IsExpression(options) ==>
              Entries(r.value.value.value) == [KeyedEntry(EmitsKey, EmitsArray(answer.value))] + Entries(options))
  {
    var c := env.ctx.(emitsTypeDecl := Some(emitType));
    match resolver.emits(c)
    case Failure(m) => Failure(ResolverFailure(c.filename, m))
    case Success(Resolved(names, keys)) =>
      var value := EmitsArray(names);
      AddPropertyEntries(options, EmitsKey, value);
      Success(Step(Register(env.(ctx := c), keys), Some(AddProperty(options, EmitsKey, value))))
  }

  /**
   * `processEmits`: with no emits type selected nothing happens (not even a
   * context update); otherwise it is `AddEmit` with the selected type.
   */
  function ProcessEmits(env: Env, params: seq<Param>, options: Node, default: Option<TypeNode>, resolver: Resolver)
    : (r: Result<Step<Option<Node>>, PassError>)
    ensures SelectEmitsType(params, default).None? ==> r == Success(Step(env, None))
    ensures SelectEmitsType(params, default).Some? ==> r == AddEmit(env, options, SelectEmitsType(params, default).value, resolver)
    ensures r.Success? ==>
      var t := SelectEmitsType(params, default);
      var v := EmitsAnswer(env.ctx, t, resolver);
      && r.value.env.ctx == (if t.Some? then env.ctx.(emitsTypeDecl := t) else env.ctx)
      && env.helpers <= r.value.env.helpers
      && r.value.value == if v.Some? then Some(AddProperty(options, EmitsKey, v.value)) else None
    ensures var t := SelectEmitsType(params, default);
      && (r.Failure? <==> EmitsFailure(env.ctx, t, resolver).Some?)
      && (r.Failure? ==> r.error == ResolverFailure(env.ctx.filename, EmitsFailure(env.ctx, t, resolver).value))
      && (r.Success? ==> r.value.env.helpers == env.helpers + EmitsHelpers(env.ctx, t, resolver))
  {
    match SelectEmitsType(params, default)
    case None => Success(Step(env, None))
    case Some(emitType) => AddEmit(env, options, emitType, resolver)
  }
}

=== FILE: visitor.dfy ===
/**
 * The `CallExpression` visitor: recognise a `defineComponent(...)` call,
 * classify its first argument, and synthesize `props` / `emits` into the
 * component object (object form) or into the second argument (function form).
 */
module Visitor {
  import opened Wrappers
  import opened Ast
  import opened Context
  import opened Provenance
  import opened Locate
  import opened Merge
  import opened Synthesize

  const DefineComponent: string := "defineComponent"

  /** The shape of the call's first argument, computed once per call. */
  datatype CallShape =
    | ObjectShape(members: seq<Member>)
    | FunctionShape(params: seq<Param>)
    | Unsupported

  /**
   * An object literal first argument is the object form, a function the
   * function form; a missing first argument or any other node is unsupported.
   */
  function ClassifyComponent(args: seq<Node>): (shape: CallShape)
    ensures shape.ObjectShape? <==> |args| > 0 && args[0].ObjectExpr?
    ensures shape.FunctionShape? <==> |args| > 0 && args[0].FunctionExpr?
    ensures shape.ObjectShape? ==> args[0] == ObjectExpr(shape.members)
    ensures shape.FunctionShape? ==> args[0] == FunctionExpr(shape.params)
  {
    if |args| == 0 then Unsupported
    else
      match args[0]
      case ObjectExpr(ms) => ObjectShape(ms)
      case FunctionExpr(ps) => FunctionShape(ps)
      case _ => Unsupported
  }

  /** An object method (of any kind) whose key is the identifier `setup`. */
  predicate IsSetupMethod(m: Member) {
    m.Method? && m.key == IdentKey("setup")
  }

  /** The index of the first `setup` method among the members, if there is one. */
  function FindSetup(ms: seq<Member>): (r: Option<nat>)
    ensures r.Some? ==> r.value < |ms| && IsSetupMethod(ms[r.value])
    ensures r.Some? ==> forall j :: 0 <= j < r.value ==> !IsSetupMethod(ms[j])
    ensures r.None? ==> forall j :: 0 <= j < |ms| ==> !IsSetupMethod(ms[j])
  {
    if |ms| == 0 then None
    else if IsSetupMethod(ms[0]) then Some(0)
    else
      match FindSetup(ms[1..])
      case None => None
      case Some(i) => Some(i + 1)
  }

  /**
   * The object form. The generic emits argument is not consulted. When the
   * object has a `setup` method, `props` and then `emits` are synthesized from
   * its parameters, each only if the object has no identifier-keyed property
   * of that name; both are prepended into the component object itself, which
   * is returned.
   */
  function ObjectForm(env: Env, comp: seq<Member>, defaultProps: Option<TypeNode>, resolver: Resolver)
    : (r: Result<Step<Node>, PassError>)
    ensures r.Success? ==> r.value.value.ObjectExpr? && env.helpers <= r.value.env.helpers
    ensures r.Success? ==> var out := r.value.value.members;
      && |comp| <= |out| <= |comp| + 2
      && out[|out| - |comp|..] == comp
      && forall i :: 0 <= i < |out| - |comp| ==> IsIdentProperty(out[i], "props") || IsIdentProperty(out[i], "emits")
    ensures r.Success? && HasIdentProperty(comp, "props") ==>
      CountIdentProperty(r.value.value.members, "props") == CountIdentProperty(comp, "props")
    ensures r.Success? && HasIdentProperty(comp, "emits") ==>
      CountIdentProperty(r.value.value.members, "emits") == CountIdentProperty(comp, "emits")
    ensures r.Success? && !HasIdentProperty(comp, "props") ==> CountIdentProperty(r.value.value.members, "props") <= 1
    ensures r.Success? && !HasIdentProperty(comp, "emits") ==> CountIdentProperty(r.value.value.members, "emits") <= 1
    ensures FindSetup(comp).None? ==> r == Success(Step(env, ObjectExpr(comp)))
    ensures FindSetup(comp).Some? ==> SetupOutcome(env, comp, comp[FindSetup(comp).value].params, defaultProps, resolver, r)
  {
    match FindSetup(comp)
    case None =>
      UnchangedObjectShape(comp);
      Success(Step(env, ObjectExpr(comp)))
    case Some(i) => SetupForm(env, comp, comp[i].params, defaultProps, resolver)
  }

  /** An object form left as written keeps its members and its key counts. */
  lemma UnchangedObjectShape(comp: seq<Member>)
    ensures HasIdentProperty(comp, "props") || CountIdentProperty(comp, "props") <= 1
    ensures HasIdentProperty(comp, "emits") || CountIdentProperty(comp, "emits") <= 1
  {
    HasIffCounted(comp, "props");
    HasIffCounted(comp, "emits");
  }

  /**
   * What the object form does once `setup` is found, with parameters `ps`.
   * The props context `c` is the updated one unless a `props` key exists; the
   * emits type `t` is the one `ps` select unless an `emits` key exists. The
   * step fails exactly when a resolver it asks fails, with the props error
   * first; otherwise the members become the emits answer, then the props
   * answer, then the original members, the context ends as `c` with `t`
   * recorded, and the helpers gain exactly what the two resolvers registered.
   */
  predicate SetupOutcome(env: Env, comp: seq<Member>, ps: seq<Param>, defaultProps: Option<TypeNode>, resolver: Resolver,
                         r: Result<Step<Node>, PassError>)
  {
    var hasProps := HasIdentProperty(comp, "props");
    var c := if hasProps then env.ctx else UpdatePropsContext(env.ctx, ps, defaultProps);
    var t := if HasIdentProperty(comp, "emits") then None else SelectEmitsType(ps, None);
    var propsFailure := if hasProps then None else PropsFailure(c, resolver);
    var emitsFailure := EmitsFailure(c, t, resolver);
    && (r.Failure? <==> propsFailure.Some? || emitsFailure.Some?)
    && (r.Failure? ==>
          r.error == ResolverFailure(env.ctx.filename, if propsFailure.Some? then propsFailure.value else emitsFailure.value))
    && (r.Success? ==>
          && r.value.value.ObjectExpr?
          && r.value.value.members
               == MemberFor(EmitsKey, EmitsAnswer(c, t, resolver))
                  + (MemberFor(PropsKey, if hasProps then None else PropsAnswer(c, resolver)) + comp)
          && r.value.env.ctx == (if t.Some? then c.(emitsTypeDecl := t) else c)
          && r.value.env.helpers == env.helpers + (if hasProps then {} else PropsHelpers(c, resolver)) + EmitsHelpers(c, t, resolver))
  }

  /** The object form's `setup` branch, with the parameters of the `setup` method found. */
  function SetupForm(env: Env, comp: seq<Member>, params: seq<Param>, defaultProps: Option<TypeNode>, resolver: Resolver)
    : (r: Result<Step<Node>, PassError>)
    ensures r.Success? ==> r.value.value.ObjectExpr? && env.helpers <= r.value.env.helpers
    ensures r.Success? ==> var out := r.value.value.members;
      && |comp| <= |out| <= |comp| + 2
      && out[|out| - |comp|..] == comp
      && forall i :: 0 <= i < |out| - |comp| ==> IsIdentProperty(out[i], "props") || IsIdentProperty(out[i], "emits")
    ensures r.Success? && HasIdentProperty(comp, "props") ==>
      CountIdentProperty(r.value.value.members, "props") == CountIdentProperty(comp, "props")
    ensures r.Success? && HasIdentProperty(comp, "emits") ==>
      CountIdentProperty(r.value.value.members, "emits") == CountIdentProperty(comp, "emits")
    ensures r.Success? && !HasIdentProperty(comp, "props") ==> CountIdentProperty(r.value.value.members, "props") <= 1
    ensures r.Success? && !HasIdentProperty(comp, "emits") ==> CountIdentProperty(r.value.value.members, "emits") <= 1
    ensures SetupOutcome(env, comp, params, defaultProps, resolver, r)
  {
    var obj := ObjectExpr(comp);
    var afterProps :- GuardedProps(env, comp, params, defaultProps, resolver);
    // `addProperty` mutated the component object itself, so its current value is the merged one.
    var obj1 := afterProps.value.GetOr(obj);
    var afterEmits :- GuardedEmits(afterProps.env, comp, params, obj1, resolver);
    var obj2 := afterEmits.value.GetOr(obj1);
    SetupFormFacts(env, comp, params, defaultProps, resolver, afterProps, afterEmits);
    WitnessMerges(obj, obj1, obj2, afterProps.value, afterEmits.value);
    ObjectFormShape(comp, obj1, obj2, HasIdentProperty(comp, "props"), HasIdentProperty(comp, "emits"));
    Success(Step(afterEmits.env, obj2))
  }

  /** `processProps` on the component object, skipped when it already has a `props` key. */
  function GuardedProps(env: Env, comp: seq<Member>, params: seq<Param>, defaultProps: Option<TypeNode>, resolver: Resolver)
    : (r: Result<Step<Option<Node>>, PassError>)
    ensures var hasProps := HasIdentProperty(comp, "props");
      var c := if hasProps then env.ctx else UpdatePropsContext(env.ctx, params, defaultProps);
      var failure := if hasProps then None else PropsFailure(c, resolver);
      var answer := if hasProps then None else PropsAnswer(c, resolver);
      && (r.Failure? <==> failure.Some?)
      && (r.Failure? ==> r.error == ResolverFailure(env.ctx.filename, failure.value))
      && (r.Success? ==> r.value.env == Env(c, env.helpers + (if hasProps then {} else PropsHelpers(c, resolver))))
      && (r.Success? ==> r.value.value == if answer.Some? then Some(AddProperty(ObjectExpr(comp), PropsKey, answer.value)) else None)
  {
    if HasIdentProperty(comp, "props") then Success(Step(env, None))
    else ProcessProps(env, params, ObjectExpr(comp), defaultProps, resolver)
  }

  /** `processEmits` on the (possibly merged) component object, skipped when it already has an `emits` key. */
  function GuardedEmits(env: Env, comp: seq<Member>, params: seq<Param>, obj: Node, resolver: Resolver)
    : (r: Result<Step<Option<Node>>, PassError>)
    ensures var t := if HasIdentProperty(comp, "emits") then None else SelectEmitsType(params, None);
      var answer := EmitsAnswer(env.ctx, t, resolver);
      && (r.Failure? <==> EmitsFailure(env.ctx, t, resolver).Some?)
      && (r.Failure? ==> r.error == ResolverFailure(env.ctx.filename, EmitsFailure(env.ctx, t, resolver).value))
      && (r.Success? ==>
            r.value.env == Env(if t.Some? then env.ctx.(emitsTypeDecl := t) else env.ctx, env.helpers + EmitsHelpers(env.ctx, t, resolver)))
      && (r.Success? ==> r.value.value == if answer.Some? then Some(AddProperty(obj, EmitsKey, answer.value)) else None)
  {
    if HasIdentProperty(comp, "emits") then Success(Step(env, None))
    else ProcessEmits(env, params, obj, None, resolver)
  }

  /** A merged value is some `addProperty` result: the witness `ObjectFormShape` asks for. */
  lemma WitnessMerges(obj: Node, obj1: Node, obj2: Node, merged1: Option<Node>, merged2: Option<Node>)
    requires obj.ObjectExpr?
    requires merged1.Some? ==> exists v :: merged1.value == AddProperty(obj, PropsKey, v)
    requires obj1 == merged1.GetOr(obj)
    requires merged2.Some? ==> exists v :: merged2.value == AddProperty(obj1, EmitsKey, v)
    requires obj2 == merged2.GetOr(obj1)
    ensures obj1 == obj || exists v :: obj1 == AddProperty(obj, PropsKey, v)
    ensures obj2 == obj1 || exists v :: obj2 == AddProperty(obj1, EmitsKey, v)
  {
  }

  /** What a successful guarded props step leaves: the context, the helpers and the members. */
  lemma GuardedPropsFacts(env: Env, comp: seq<Member>, params: seq<Param>, defaultProps: Option<TypeNode>, resolver: Resolver,
                          afterProps: Step<Option<Node>>)
    requires GuardedProps(env, comp, params, defaultProps, resolver) == Success(afterProps)
    ensures var hasProps := HasIdentProperty(comp, "props");
      var c := if hasProps then env.ctx else UpdatePropsContext(env.ctx, params, defaultProps);
      !hasProps ==> PropsFailure(c, resolver).None?
    ensures var hasProps := HasIdentProperty(comp, "props");
      var c := if hasProps then env.ctx else UpdatePropsContext(env.ctx, params, defaultProps);
      && afterProps.env.ctx == c
      && afterProps.env.helpers == env.helpers + (if hasProps then {} else PropsHelpers(c, resolver))
      && afterProps.value.GetOr(ObjectExpr(comp)).ObjectExpr?
      && afterProps.value.GetOr(ObjectExpr(comp)).members
           == MemberFor(PropsKey, if hasProps then None else PropsAnswer(c, resolver)) + comp
  {
  }

  /** What a successful guarded emits step leaves: the context, the helpers and the members. */
  lemma GuardedEmitsFacts(env: Env, comp: seq<Member>, params: seq<Param>, obj: Node, resolver: Resolver,
                          afterEmits: Step<Option<Node>>)
    requires obj.ObjectExpr?
    requires GuardedEmits(env, comp, params, obj, resolver) == Success(afterEmits)
    ensures var t := if HasIdentProperty(comp, "emits") then None else SelectEmitsType(params, None);
      && EmitsFailure(env.ctx, t, resolver).None?
      && afterEmits.env.ctx == (if t.Some? then env.ctx.(emitsTypeDecl := t) else env.ctx)
      && afterEmits.env.helpers == env.helpers + EmitsHelpers(env.ctx, t, resolver)
      && afterEmits.value.GetOr(obj).members == MemberFor(EmitsKey, EmitsAnswer(env.ctx, t, resolver)) + obj.members
  {
  }

  /** The two guarded steps of the `setup` branch compose to `SetupOutcome`. */
  lemma SetupFormFacts(env: Env, comp: seq<Member>, params: seq<Param>, defaultProps: Option<TypeNode>, resolver: Resolver,
                       afterProps: Step<Option<Node>>, afterEmits: Step<Option<Node>>)
    requires GuardedProps(env, comp, params, defaultProps, resolver) == Success(afterProps)
    requires GuardedEmits(afterProps.env, comp, params, afterProps.value.GetOr(ObjectExpr(comp)), resolver) == Success(afterEmits)
    ensures var obj2 := afterEmits.value.GetOr(afterProps.value.GetOr(ObjectExpr(comp)));
      SetupOutcome(env, comp, params, defaultProps, resolver, Success(Step(afterEmits.env, obj2)))
  {
    var obj1 := afterProps.value.GetOr(ObjectExpr(comp));
    GuardedPropsFacts(env, comp, params, defaultProps, resolver, afterProps);
    GuardedEmitsFacts(afterProps.env, comp, params, obj1, resolver, afterEmits);
    var obj2 := afterEmits.value.GetOr(obj1);
    var hasProps := HasIdentProperty(comp, "props");
    var c := if hasProps then env.ctx else UpdatePropsContext(env.ctx, params, defaultProps);
    var t := if HasIdentProperty(comp, "emits") then None else SelectEmitsType(params, None);
    var props := if hasProps then None else PropsAnswer(c, resolver);
    var propsFailure := if hasProps then None else PropsFailure(c, resolver);
    assert obj2.members == MemberFor(EmitsKey, EmitsAnswer(c, t, resolver)) + (MemberFor(PropsKey, props) + comp);
    assert propsFailure.None? && EmitsFailure(c, t, resolver).None?;
    assert afterEmits.env.ctx == (if t.Some? then c.(emitsTypeDecl := t) else c);
    assert afterEmits.env.helpers == env.helpers + (if hasProps then {} else PropsHelpers(c, resolver)) + EmitsHelpers(c, t, resolver);
  }

  /** The bookkeeping behind `ObjectForm`'s contract: at most one guarded prepend per key. */
  lemma ObjectFormShape(comp: seq<Member>, obj1: Node, obj2: Node, hasProps: bool, hasEmits: bool)
    requires hasProps == HasIdentProperty(comp, "props") && hasEmits == HasIdentProperty(comp, "emits")
    requires obj1 == ObjectExpr(comp) || (!hasProps && exists v :: obj1 == AddProperty(ObjectExpr(comp), PropsKey, v))
    requires obj2 == obj1 || (!hasEmits && exists v :: obj2 == AddProperty(obj1, EmitsKey, v))
    ensures obj2.ObjectExpr?
    ensures var out := obj2.members;
      && |comp| <= |out| <= |comp| + 2
      && out[|out| - |comp|..] == comp
      && forall i :: 0 <= i < |out| - |comp| ==> IsIdentProperty(out[i], "props") || IsIdentProperty(out[i], "emits")
    ensures hasProps ==> CountIdentProperty(obj2.members, "props") == CountIdentProperty(comp, "props")
    ensures hasEmits ==> CountIdentProperty(obj2.members, "emits") == CountIdentProperty(comp, "emits")
    ensures !hasProps ==> CountIdentProperty(obj2.members, "props") <= 1
    ensures !hasEmits ==> CountIdentProperty(obj2.members, "emits") <= 1
  {
    HasIffCounted(comp, "props");
    HasIffCounted(comp, "emits");
    assert obj1.ObjectExpr? && obj1.members[|obj1.members| - |comp|..] == comp;
    assert CountIdentProperty(obj1.members, "props") == CountIdentProperty(comp, "props") + (if obj1 == ObjectExpr(comp) then 0 else 1);
    assert CountIdentProperty(obj1.members, "emits") == CountIdentProperty(comp, "emits");
    assert obj2.members[|obj2.members| - |obj1.members|..] == obj1.members;
    assert CountIdentProperty(obj2.members, "props") == CountIdentProperty(obj1.members, "props");
  }

  /**
   * The function form, as written. A missing second argument becomes `{}`.
   * Props are merged first, emits into the result; when emits produce
   * nothing, the second argument reverts to the original options node (which,
   * for an object literal, already holds the merged props).
   */
  function FunctionForm(env: Env, params: seq<Param>, args: seq<Node>, defaultProps: Option<TypeNode>,
                        defaultEmits: Option<TypeNode>, resolver: Resolver)
    : (r: Result<Step<seq<Node>>, PassError>)
    requires |args| > 0
    ensures r.Success? ==> |r.value.value| == if |args| == 1 then 2 else |args|
    ensures r.Success? ==> r.value.value[0] == args[0] && (|args| > 2 ==> r.value.value[2..] == args[2..])
    ensures r.Success? ==> env.helpers <= r.value.env.helpers
    ensures r.Success? ==>
      var options := if |args| > 1 then args[1] else ObjectExpr([]);
      var c := UpdatePropsContext(env.ctx, params, defaultProps);
      var t := SelectEmitsType(params, defaultEmits);
      var props := PropsAnswer(c, resolver);
      var emits := EmitsAnswer(c, t, resolver);
      && r.value.env.ctx == (if t.Some? then c.(emitsTypeDecl := t) else c)
      && (!IsExpression(options) ==> r.value.value[1] == options)
      && (IsExpression(options) && (options.ObjectExpr? || emits.Some?) ==>
            Entries(r.value.value[1]) == EntryFor(EmitsKey, emits) + EntryFor(PropsKey, props) + Entries(options))
      && (!options.ObjectExpr? && emits.None? ==> r.value.value[1] == options)
      && (options.ObjectExpr? ==> r.value.value[1].ObjectExpr?)
      && (props.None? && emits.None? ==> r.value.value[1] == options)
    ensures var c := UpdatePropsContext(env.ctx, params, defaultProps);
      var t := SelectEmitsType(params, defaultEmits);
      var propsFailure := PropsFailure(c, resolver);
      var emitsFailure := EmitsFailure(c, t, resolver);
      && (r.Failure? <==> propsFailure.Some? || emitsFailure.Some?)
      && (r.Failure? ==>
            r.error == ResolverFailure(env.ctx.filename, if propsFailure.Some? then propsFailure.value else emitsFailure.value))
      && (r.Success? ==> r.value.env.helpers == env.helpers + PropsHelpers(c, resolver) + EmitsHelpers(c, t, resolver))
  {
    var options := if |args| > 1 then args[1] else ObjectExpr([]);
    var args1 := if |args| > 1 then args else args + [options];
    var afterProps :- ProcessProps(env, params, options, defaultProps, resolver);
    var arg1 := afterProps.value.GetOr(options);
    var afterEmits :- ProcessEmits(afterProps.env, params, arg1, defaultEmits, resolver);
    var props := PropsAnswer(afterProps.env.ctx, resolver);
    var emits := EmitsAnswer(afterProps.env.ctx, SelectEmitsType(params, defaultEmits), resolver);
    SecondArgumentNode(options, afterProps.value, props, afterEmits.value, emits);
    SecondArgumentEntriesAsWritten(options, afterProps.value, props, afterEmits.value, emits);
    Success(Step(afterEmits.env, args1[1 := SecondArgumentAsWritten(options, afterProps.value, afterEmits.value)]))
  }

  /**
   * The function form as evidently intended: when emits produce nothing the
   * second argument stays what the props step made of it.
   */
  function FunctionFormFixed(env: Env, params: seq<Param>, args: seq<Node>, defaultProps: Option<TypeNode>,
                             defaultEmits: Option<TypeNode>, resolver: Resolver)
    : (r: Result<Step<seq<Node>>, PassError>)
    requires |args| > 0
    ensures r.Success? ==> |r.value.value| == if |args| == 1 then 2 else |args|
    ensures r.Success? ==> r.value.value[0] == args[0] && (|args| > 2 ==> r.value.value[2..] == args[2..])
    ensures r.Success? ==>
      var options := if |args| > 1 then args[1] else ObjectExpr([]);
      var c := UpdatePropsContext(env.ctx, params, defaultProps);
      var props := PropsAnswer(c, resolver);
      var emits := EmitsAnswer(c, SelectEmitsType(params, defaultEmits), resolver);
      && (!IsExpression(options) ==> r.value.value[1] == options)
      && (IsExpression(options) ==>
            Entries(r.value.value[1]) == EntryFor(EmitsKey, emits) + EntryFor(PropsKey, props) + Entries(options))
      && (options.ObjectExpr? ==> r.value.value[1].ObjectExpr?)
  {
    var options := if |args| > 1 then args[1] else ObjectExpr([]);
    var args1 := if |args| > 1 then args else args + [options];
    var afterProps :- ProcessProps(env, params, options, defaultProps, resolver);
    var arg1 := afterProps.value.GetOr(options);
    var afterEmits :- ProcessEmits(afterProps.env, params, arg1, defaultEmits, resolver);
    SecondArgumentEntriesFixed(options, afterProps.value, PropsAnswer(afterProps.env.ctx, resolver),
                               afterEmits.value, EmitsAnswer(afterProps.env.ctx, SelectEmitsType(params, defaultEmits), resolver));
    var final := afterEmits.value.GetOr(arg1);
    Success(Step(afterEmits.env, args1[1 := final]))
  }

  /**
   * What the props merge leaves as the second argument: the merged options
   * when the resolver answered, the options themselves otherwise.
   */
  lemma SecondArgumentEntries(options: Node, merged: Option<Node>, props: Option<Node>)
    requires merged == if props.Some? then Some(AddProperty(options, PropsKey, props.value)) else None
    ensures IsExpression(options) ==> Entries(merged.GetOr(options)) == EntryFor(PropsKey, props) + Entries(options)
    ensures !IsExpression(options) ==> merged.GetOr(options) == options
    ensures IsExpression(merged.GetOr(options)) <==> IsExpression(options)
  {
    if props.Some? {
      AddPropertyEntries(options, PropsKey, props.value);
    }
  }

  /**
   * What the function form as written leaves as the second argument: the
   * emits merge applied to the props-merged options, or, without emits, the
   * options node itself. An object literal was mutated in place by the props
   * merge, so it is the merged one; any other options node was not.
   */
  function SecondArgumentAsWritten(options: Node, propsMerged: Option<Node>, emitsMerged: Option<Node>): Node {
    emitsMerged.GetOr(if options.ObjectExpr? then propsMerged.GetOr(options) else options)
  }

  /** Which node the function form as written leaves as the second argument. */
  lemma SecondArgumentNode(options: Node, propsMerged: Option<Node>, props: Option<Node>,
                           emitsMerged: Option<Node>, emits: Option<Node>)
    requires propsMerged == if props.Some? then Some(AddProperty(options, PropsKey, props.value)) else None
    requires emitsMerged == if emits.Some? then Some(AddProperty(propsMerged.GetOr(options), EmitsKey, emits.value)) else None
    ensures var final := SecondArgumentAsWritten(options, propsMerged, emitsMerged);
      && (!IsExpression(options) ==> final == options)
      && (!options.ObjectExpr? && emits.None? ==> final == options)
      && (options.ObjectExpr? ==> final.ObjectExpr?)
      && (props.None? && emits.None? ==> final == options)
  {
    if !IsExpression(options) {
      AddPropertyKeepsNonExpression(options, PropsKey, if props.Some? then props.value else options);
      if emits.Some? {
        AddPropertyKeepsNonExpression(propsMerged.GetOr(options), EmitsKey, emits.value);
      }
    }
  }

  /** The run-time entries of the function form's second argument, when it is the merged one. */
  lemma SecondArgumentEntriesAsWritten(options: Node, propsMerged: Option<Node>, props: Option<Node>,
                                       emitsMerged: Option<Node>, emits: Option<Node>)
    requires propsMerged == if props.Some? then Some(AddProperty(options, PropsKey, props.value)) else None
    requires emitsMerged == if emits.Some? then Some(AddProperty(propsMerged.GetOr(options), EmitsKey, emits.value)) else None
    ensures IsExpression(options) && (options.ObjectExpr? || emits.Some?) ==>
      Entries(SecondArgumentAsWritten(options, propsMerged, emitsMerged))
      == EntryFor(EmitsKey, emits) + EntryFor(PropsKey, props) + Entries(options)
  {
    if IsExpression(options) && (options.ObjectExpr? || emits.Some?) {
      assert SecondArgumentAsWritten(options, propsMerged, emitsMerged) == emitsMerged.GetOr(propsMerged.GetOr(options));
      SecondArgumentEntriesFixed(options, propsMerged, props, emitsMerged, emits);
    }
  }

  /**
   * The corrected form's second argument: the emits merge applied to the
   * props-merged options, whatever their shape.
   */
  lemma SecondArgumentEntriesFixed(options: Node, propsMerged: Option<Node>, props: Option<Node>,
                                   emitsMerged: Option<Node>, emits: Option<Node>)
    requires propsMerged == if props.Some? then Some(AddProperty(options, PropsKey, props.value)) else None
    requires emitsMerged == if emits.Some? then Some(AddProperty(propsMerged.GetOr(options), EmitsKey, emits.value)) else None
    ensures var final := emitsMerged.GetOr(propsMerged.GetOr(options));
      && (IsExpression(options) ==> Entries(final) == EntryFor(EmitsKey, emits) + EntryFor(PropsKey, props) + Entries(options))
      && (!IsExpression(options) ==> final == options)
      && (options.ObjectExpr? ==> final.ObjectExpr?)
  {
    var arg1 := propsMerged.GetOr(options);
    SecondArgumentEntries(options, propsMerged, props);
    EmitsMergeEntries(arg1, emitsMerged, emits);
    if IsExpression(options) {
      PrependTwice(Entries(emitsMerged.GetOr(arg1)), EntryFor(EmitsKey, emits), Entries(arg1),
                   EntryFor(PropsKey, props), Entries(options));
    }
  }

  /**
   * Merging the emits answer into the props-merged options puts its entry in
   * front of what was there, leaves a spread or placeholder alone, and keeps
   * an object literal an object literal.
   */
  lemma EmitsMergeEntries(arg1: Node, emitsMerged: Option<Node>, emits: Option<Node>)
    requires emitsMerged == if emits.Some? then Some(AddProperty(arg1, EmitsKey, emits.value)) else None
    ensures IsExpression(arg1) ==> Entries(emitsMerged.GetOr(arg1)) == EntryFor(EmitsKey, emits) + Entries(arg1)
    ensures !IsExpression(arg1) ==> emitsMerged.GetOr(arg1) == arg1
    ensures arg1.ObjectExpr? ==> emitsMerged.GetOr(arg1).ObjectExpr?
  {
    if emits.Some? {
      AddPropertyEntries(arg1, EmitsKey, emits.value);
    } else {
      assert EntryFor(EmitsKey, emits) + Entries(arg1) == Entries(arg1);
    }
  }

  /** Two prefixes put in front one after the other are one prefix. */
  lemma PrependTwice<T>(whole: seq<T>, a: seq<T>, rest: seq<T>, b: seq<T>, tail: seq<T>)
    requires whole == a + rest && rest == b + tail
    ensures whole == a + b + tail
  {
  }

  /** A visit's outcome: the state after it and the (possibly rewritten) call. */
  datatype Visited = Visited(state: PluginState, call: Call)

  /**
   * The `CallExpression` visitor. Without a loaded context it fails; a call
   * whose callee is not the identifier `defineComponent`, or whose
   * `defineComponent` is not Vue's, or whose first argument is neither an
   * object literal nor a function, comes back unchanged with the state.
   */
  function VisitCall(st: PluginState, binding: Option<Declaration>, call: Call, resolver: Resolver)
    : (r: Result<Visited, PassError>)
    ensures st.Unloaded? ==> r == Failure(ContextNotLoaded)
    ensures (&& st.Loaded?
             && (|| call.callee != Ident(DefineComponent)
                 || !CheckDefineComponent(binding)
                 || ClassifyComponent(call.arguments).Unsupported?)) ==> r == Success(Visited(st, call))
    ensures r.Success? ==> r.value.state.Loaded? && st.env.helpers <= r.value.state.env.helpers
    ensures r.Success? ==> r.value.call.callee == call.callee && r.value.call.typeArgs == call.typeArgs
    ensures r.Failure? && st.Loaded? ==> r.error.ResolverFailure? && r.error.filename == st.env.ctx.filename
    ensures r.Success? && st.Loaded? && call.callee == Ident(DefineComponent) && CheckDefineComponent(binding)
            && ClassifyComponent(call.arguments).ObjectShape? ==>
      && |r.value.call.arguments| == |call.arguments|
      && r.value.call.arguments[0].ObjectExpr?
      && r.value.call.arguments[1..] == call.arguments[1..]
    ensures r.Success? && st.Loaded? && call.callee == Ident(DefineComponent) && CheckDefineComponent(binding)
            && ClassifyComponent(call.arguments).FunctionShape? ==>
      && |r.value.call.arguments| == (if |call.arguments| == 1 then 2 else |call.arguments|)
      && r.value.call.arguments[0] == call.arguments[0]
    ensures st.Loaded? && call.callee == Ident(DefineComponent) && CheckDefineComponent(binding)
            && ClassifyComponent(call.arguments).ObjectShape? ==>
      var o := ObjectForm(st.env, call.arguments[0].members, TypeArgAt(call.typeArgs, 0), resolver);
      && (r.Success? <==> o.Success?)
      && (r.Success? ==> r.value.state == Loaded(o.value.env) && r.value.call.arguments == call.arguments[0 := o.value.value])
      && (r.Failure? ==> r.error == o.error)
    ensures st.Loaded? && call.callee == Ident(DefineComponent) && CheckDefineComponent(binding)
            && ClassifyComponent(call.arguments).FunctionShape? ==>
      var f := FunctionForm(st.env, call.arguments[0].params, call.arguments, TypeArgAt(call.typeArgs, 0), TypeArgAt(call.typeArgs, 1), resolver);
      && (r.Success? <==> f.Success?)
      && (r.Success? ==> r.value.state == Loaded(f.value.env) && r.value.call.arguments == f.value.value)
      && (r.Failure? ==> r.error == f.error)
  {
    match st
    case Unloaded => Failure(ContextNotLoaded)
    case Loaded(env) =>
      if call.callee != Ident(DefineComponent) || !CheckDefineComponent(binding) then
        Success(Visited(st, call))
      else
        match ClassifyComponent(call.arguments)
        case ObjectShape(ms) =>
          var s :- ObjectForm(env, ms, TypeArgAt(call.typeArgs, 0), resolver);
          Success(Visited(Loaded(s.env), call.(arguments := call.arguments[0 := s.value])))
        case FunctionShape(ps) =>
          var s :- FunctionForm(env, ps, call.arguments, TypeArgAt(call.typeArgs, 0), TypeArgAt(call.typeArgs, 1), resolver);
          Success(Visited(Loaded(s.env), call.(arguments := s.value)))
        case Unsupported => Success(Visited(st, call))
  }
}

=== FILE: visitor_facts.dfy ===
/**
 * Properties of the `CallExpression` visitor across call shapes: what the
 * object form ignores and guards, the argument layout of the function form,
 * and the two ways the function form's final assignment can go.
 */
module VisitorFacts {
  import opened Wrappers
  import opened Ast
  import opened Context
  import opened Provenance
  import opened Locate
  import opened Merge
  import opened Synthesize
  import opened Visitor

  /** In the object form the second generic argument plays no part: changing it changes nothing else. */
  lemma ObjectFormIgnoresGenericEmits(st: PluginState, binding: Option<Declaration>, c1: Call, c2: Call, resolver: Resolver)
    requires c1.callee == c2.callee && c1.arguments == c2.arguments
    requires TypeArgAt(c1.typeArgs, 0) == TypeArgAt(c2.typeArgs, 0)
    requires |c1.arguments| > 0 && c1.arguments[0].ObjectExpr?
    ensures var r1 := VisitCall(st, binding, c1, resolver);
      var r2 := VisitCall(st, binding, c2, resolver);
      && (r1.Success? <==> r2.Success?)
      && (r1.Success? ==> r1.value.state == r2.value.state && r1.value.call.arguments == r2.value.call.arguments)
      && (r1.Failure? ==> r1.error == r2.error)
  {
  }

  /**
   * Running the pass again on its own output adds no second `props` or
   * `emits` key to an object-form component: the keys it synthesizes are
   * identifier-keyed properties, which the existing-key guard recognises.
   */
  lemma ObjectFormRerunAddsNoSecondKey(st1: PluginState, st2: PluginState, binding: Option<Declaration>, call: Call,
                                       resolver1: Resolver, resolver2: Resolver, ms: seq<Member>)
    requires |call.arguments| > 0 && call.arguments[0] == ObjectExpr(ms)
    requires CountIdentProperty(ms, "props") == 0 && CountIdentProperty(ms, "emits") == 0
    requires VisitCall(st1, binding, call, resolver1).Success?
    requires VisitCall(VisitCall(st1, binding, call, resolver1).value.state, binding,
                       VisitCall(st1, binding, call, resolver1).value.call, resolver2).Success?
    ensures var once := VisitCall(st1, binding, call, resolver1).value;
      var twice := VisitCall(once.state, binding, once.call, resolver2).value;
      && twice.call.arguments[0].ObjectExpr?
      && CountIdentProperty(twice.call.arguments[0].members, "props") <= 1
      && CountIdentProperty(twice.call.arguments[0].members, "emits") <= 1
  {
    HasIffCounted(ms, "props");
    HasIffCounted(ms, "emits");
    var once := VisitCall(st1, binding, call, resolver1).value;
    assert once.call.arguments[0].ObjectExpr?;
    var ms1 := once.call.arguments[0].members;
    assert CountIdentProperty(ms1, "props") <= 1 && CountIdentProperty(ms1, "emits") <= 1;
    HasIffCounted(ms1, "props");
    HasIffCounted(ms1, "emits");
  }

  /**
   * Only the first `setup` method counts: here it is untyped while a second,
   * typed `setup` follows, and no `props` key is synthesized.
   */
  lemma OnlyFirstSetupMethodCounts(env: Env, p: TypeNode, resolver: Resolver)
    requires env.ctx.propsTypeDecl.None?
    ensures var comp := [Method(IdentKey("setup"), [PlainParam(NoAnnotation)]),
                         Method(IdentKey("setup"), [PlainParam(TSAnnotation(p))])];
      ObjectForm(env, comp, None, resolver) == Success(Step(env, ObjectExpr(comp)))
  {
    var ps := [PlainParam(NoAnnotation)];
    var comp := [Method(IdentKey("setup"), ps), Method(IdentKey("setup"), [PlainParam(TSAnnotation(p))])];
    assert FindSetup(comp) == Some(0);
    assert !HasIdentProperty(comp, "props") && !HasIdentProperty(comp, "emits");
    assert UpdatePropsContext(env.ctx, ps, None) == env.ctx;
    assert SelectEmitsType(ps, None).None?;
    var afterProps := GuardedProps(env, comp, ps, None, resolver);
    assert afterProps == Success(Step(env, None));
    assert GuardedEmits(env, comp, ps, ObjectExpr(comp), resolver) == Success(Step(env, None));
  }

  /**
   * With an object-literal second argument and both keys synthesized, the
   * result is that object with `emits` first, `props` second, and the user's
   * members after them in their order.
   */
  lemma FunctionFormEmitsBeforeProps(env: Env, params: seq<Param>, f: Node, ms: seq<Member>,
                                     dP: Option<TypeNode>, dE: Option<TypeNode>, resolver: Resolver)
    requires var p := ProcessProps(env, params, ObjectExpr(ms), dP, resolver);
      && p.Success? && p.value.value.Some?
      && var e := ProcessEmits(p.value.env, params, p.value.value.value, dE, resolver);
         e.Success? && e.value.value.Some?
    ensures var r := FunctionForm(env, params, [f, ObjectExpr(ms)], dP, dE, resolver);
      && r.Success?
      && r.value.value[1].ObjectExpr?
      && var out := r.value.value[1].members;
         && |out| == |ms| + 2
         && IsIdentProperty(out[0], "emits")
         && IsIdentProperty(out[1], "props")
         && out[2..] == ms
  {
    var r := FunctionForm(env, params, [f, ObjectExpr(ms)], dP, dE, resolver);
    var out := r.value.value[1].members;
    assert out[2..] == ms;
  }

  /**
   * When emits produce nothing the second argument becomes the original
   * options node again: for anything but an object literal that discards the
   * `props` merge made one line earlier.
   */
  lemma FunctionFormRevertsWhenNoEmits(env: Env, params: seq<Param>, f: Node, options: Node,
                                       dP: Option<TypeNode>, dE: Option<TypeNode>, resolver: Resolver)
    requires !options.ObjectExpr?
    requires var p := ProcessProps(env, params, options, dP, resolver);
      && p.Success?
      && var e := ProcessEmits(p.value.env, params, p.value.value.GetOr(options), dE, resolver);
         e.Success? && e.value.value.None?
    ensures var r := FunctionForm(env, params, [f, options], dP, dE, resolver);
      r.Success? && r.value.value == [f, options]
  {
  }

  /**
   * The corrected function form never loses a `props` key it synthesized:
   * whatever the emits step does, the second argument is an object literal
   * holding that key.
   */
  lemma FunctionFormFixedKeepsProps(env: Env, params: seq<Param>, args: seq<Node>,
                                    dP: Option<TypeNode>, dE: Option<TypeNode>, resolver: Resolver)
    requires |args| > 0
    requires var options := if |args| > 1 then args[1] else ObjectExpr([]);
      && IsExpression(options)
      && var p := ProcessProps(env, params, options, dP, resolver);
         p.Success? && p.value.value.Some?
    requires FunctionFormFixed(env, params, args, dP, dE, resolver).Success?
    ensures var out := FunctionFormFixed(env, params, args, dP, dE, resolver).value.value[1];
      out.ObjectExpr? && HasIdentProperty(out.members, "props")
  {
    var options := if |args| > 1 then args[1] else ObjectExpr([]);
    var p := ProcessProps(env, params, options, dP, resolver);
    var arg1 := p.value.value.value;
    assert IsIdentProperty(arg1.members[0], "props");
    var e := ProcessEmits(p.value.env, params, arg1, dE, resolver);
    var out := FunctionFormFixed(env, params, args, dP, dE, resolver).value.value[1];
    if e.value.value.Some? {
      assert out.members[1] == arg1.members[0];
    } else {
      assert out.members[0] == arg1.members[0];
    }
  }

  /**
   * `defineComponent<P, E>(() => ...)`: the first generic argument becomes the
   * props type and the second the emits type, and each reaches the resolver
   * that is asked about it.
   */
  lemma GenericArgumentsRoute(env: Env, p: TypeNode, e: TypeNode, resolver: Resolver)
    ensures var call := Call(Ident(DefineComponent), [p, e], [FunctionExpr([])]);
      var r := VisitCall(Loaded(env), None, call, resolver);
      var c := env.ctx.(propsTypeDecl := Some(p));
      && (r.Success? ==> r.value.state.env.ctx == c.(emitsTypeDecl := Some(e)))
      && (r.Success? ==>
            Entries(r.value.call.arguments[1])
              == EntryFor(EmitsKey, EmitsAnswer(c, Some(e), resolver)) + EntryFor(PropsKey, PropsAnswer(c, resolver)))
  {
    var call := Call(Ident(DefineComponent), [p, e], [FunctionExpr([])]);
    assert ClassifyComponent(call.arguments) == FunctionShape([]);
    assert TypeArgAt(call.typeArgs, 0) == Some(p) && TypeArgAt(call.typeArgs, 1) == Some(e);
    assert Entries(ObjectExpr([])) == [];
  }

  /** A resolver that answers `{ msg: String }` whenever a props type is set and names no events. */
  function PropsOnlyResolver(): Resolver {
    Resolver(
      (c: ResolveContext) => Success(Resolved(if c.propsTypeDecl.Some? then Some(OtherExpr("{ msg: String }")) else None, {})),
      (c: ResolveContext) => Success(Resolved([], {})))
  }

  /**
   * `defineComponent((props: Props) => ..., opts)` as written: the resolver
   * produces props, no emits type exists, and the second argument ends up as
   * plain `opts` without them. The corrected form keeps `{props, ...opts}`.
   */
  lemma IdentifierOptionsLoseProps(env: Env, p: TypeNode)
    ensures var params := [PlainParam(TSAnnotation(p))];
      var args := [FunctionExpr(params), Ident("opts")];
      && ProcessProps(env, params, Ident("opts"), None, PropsOnlyResolver()).value.value.Some?
      && FunctionForm(env, params, args, None, None, PropsOnlyResolver()).value.value[1] == Ident("opts")
      && FunctionFormFixed(env, params, args, None, None, PropsOnlyResolver()).value.value[1]
           == ObjectExpr([Property(PropsKey, OtherExpr("{ msg: String }")), SpreadMember(Ident("opts"))])
  {
  }

  /** A resolver that knows no props and reads `change` and `click` off the type `events`. */
  function EventsResolver(events: TypeNode): Resolver {
    Resolver(
      (c: ResolveContext) => Success(Resolved(None, {})),
      (c: ResolveContext) => Success(Resolved(if c.emitsTypeDecl == Some(events) then ["change", "click"] else [], {})))
  }

  /** The second parameter of the emits example: `{ emit }: SetupContext<events>`. */
  function SetupContextParams(events: TypeNode): seq<Param> {
    [PlainParam(NoAnnotation), PlainParam(TSAnnotation(TypeRef(TypeIdent("SetupContext"), [events])))]
  }

  /** The emits object the example should produce: `{ emits: ["change", "click"] }`. */
  function ChangeClickOptions(): Node {
    ObjectExpr([Property(EmitsKey, ArrayExpr([StringLit("change"), StringLit("click")]))])
  }

  /** The function-form step of the emits example, from a context holding no props type. */
  lemma SetupContextEmitsStep(env: Env, events: TypeNode)
    requires env.ctx.propsTypeDecl.None?
    ensures var fn := FunctionExpr(SetupContextParams(events));
      var f := FunctionForm(env, SetupContextParams(events), [fn], None, None, EventsResolver(events));
      f.Success? && f.value.value == [fn, ChangeClickOptions()]
  {
    var resolver := EventsResolver(events);
    var params := SetupContextParams(events);
    assert ProcessProps(env, params, ObjectExpr([]), None, resolver) == Success(Step(env, None));
    assert [events] + [] == [events];
    SetupContextArgumentWins(params, None, events, []);
    var emitsValue := EmitsArray(["change", "click"]);
    assert emitsValue == ArrayExpr([StringLit("change"), StringLit("click")]);
    var c := env.ctx.(emitsTypeDecl := Some(events));
    assert resolver.emits(c) == Success(Resolved(["change", "click"], {}));
    assert [Property(EmitsKey, emitsValue)] + [] == [Property(EmitsKey, emitsValue)];
    var e := AddEmit(env, ObjectExpr([]), events, resolver);
    assert e.value.value == Some(ChangeClickOptions());
    assert ProcessEmits(env, params, ObjectExpr([]), None, resolver) == e;
  }

  /**
   * The emits example of the pass's tests: a fresh file, `defineComponent`
   * imported from `vue`, and `SetupContext<{ change(...); click() }>` on the
   * second parameter give `{ emits: ["change", "click"] }` as the new second
   * argument, in declaration order.
   */
  lemma SetupContextEmitsExample(filename: string, code: string, events: TypeNode)
    ensures var fn := FunctionExpr(SetupContextParams(events));
      var call := Call(Ident(DefineComponent), [], [fn]);
      var r := VisitCall(Pre(filename, code), Some(ImportDeclaration("vue")), call, EventsResolver(events));
      r.Success? && r.value.call.arguments == [fn, ChangeClickOptions()]
  {
    var st := Pre(filename, code);
    SetupContextEmitsStep(st.env, events);
    ProvenanceExamples();
    var fn := FunctionExpr(SetupContextParams(events));
    assert ClassifyComponent([fn]) == FunctionShape(SetupContextParams(events));
    assert TypeArgAt([], 0) == None && TypeArgAt([], 1) == None;
  }

  /** `defineComponent(() => ...)` with nothing to synthesize still gains an empty options object. */
  lemma MissingOptionsBecomeEmptyObject(env: Env, resolver: Resolver)
    requires env.ctx.propsTypeDecl.None?
    ensures var call := Call(Ident(DefineComponent), [], [FunctionExpr([])]);
      var r := VisitCall(Loaded(env), None, call, resolver);
      r.Success? && r.value.call.arguments == [FunctionExpr([]), ObjectExpr([])]
  {
  }
}

=== FILE: wrappers.dfy ===
/** Failure-compatible Option and Result types used throughout the model. */
module Wrappers {

  /** An optional value; the model's stand-in for a JavaScript `undefined`-able slot. */
  datatype Option<+T> = None | Some(value: T) {

    /** The value if present, otherwise `default` (JavaScript's `x || default` on nodes). */
    function GetOr(default: T): T {
      match this
      case Some(v) => v
      case None => default
    }

    /** This option if present, otherwise `other` (JavaScript's `x ?? other`). */
    function OrElse(other: Option<T>): Option<T> {
      match this
      case Some(_) => this
      case None => other
    }
  }

  /** Either a value or an error; usable with `:-`. */
  datatype Result<+T, +E> = Success(value: T) | Failure(error: E) {

    predicate IsFailure() {
      Failure?
    }

    function PropagateFailure<U>(): Result<U, E>
      requires Failure?
    {
      Failure(error)
    }

    function Extract(): T
      requires Success?
    {
      value
    }
  }
}
